=== FILE: README.md ===
# battleship_mp, modelled in Dafny

This project models the coordination core of `battleship_mp`, a two-player battleship game played over a coordinating server. It covers three pieces:

- **The client session guard** (`battleship_mp/client.py`, class `GameSession`), in `session.dfy`. It is a five-state machine (Started, Placed, Firing, Ended, Failed) that every call passes before it talks to the peer. The calls are `place_ships`, `announce_shot`, `expect_shot` and `end_game`. Each becomes a pure function. It takes the peer's reply as an input and returns the new session, the messages it sent, and its result or error.
- **The match coordinator** (`battleship_mp/server.py`, classes `Game` and `Server`), in `server.dfy` and `matchmaking.dfy`. It covers:
  - the handshake;
  - the placement swap;
  - the per-round shot resolver with its one-round buffer;
  - the end-of-game arbiter;
  - the turn loop, as a sequence of rounds;
  - the matchmaking slot that holds at most one waiting client.

  Each round's two concurrent reads become the pair of messages the round reads. The server's coin toss becomes a boolean input.
- **The example client** (`example.py`), in `board.dfy` and `play.dfy`. It covers:
  - the `SHOTS` enumeration;
  - `create_positions`, with its random draws as inputs;
  - `expand` and `defeated`;
  - marking shots on the 3x3 board;
  - the `play` loop with its outcome table.

`protocol.dfy` holds the shared vocabulary: error kinds, coordinates, ship placements, and the messages a client sends (`Request`) and receives (`Reply`). `agreement.dfy` connects the two sides. It shows that what the coordinator sends is what the sessions expect, and that the coordinator ends the game with the winner both example clients compute.

The coordinator deviates in several places from the contract its own client and example rely on (see "## Findings"). For each deviation, `Server` keeps the code as written (the members whose names end in `AsWritten`, and the lemmas that exhibit each deviation on a concrete input). Beside them it has a corrected definition, and the rest of the model uses the corrected one.

Some cases of the arbiter and the placement swap could be read more than one way. The model follows the code:

- **Two claims that each name the opponent.** A symmetric reading would give no winner. The code looks at A's claim first and treats it as a concession, so B wins (`Server.ArbitrationCases`).
- **Two claims that name the same winner.** That peer wins whenever it is one of the two peers, because the other peer's claim is then a concession. When the name matches neither peer, the code announces no winner.
- **A failure notice in a claim round.** Both messages of a round are unpacked before `handle_end` runs (server.py:60-61), so a failure notice raises its error before any claim is arbitrated.
- **Two malformed placements.** When neither placement message has the expected shape, the model reports A's error. The code reads both concurrently, and which error surfaces first is not determined by it.

The module `messages` (`communicate`, `pack`, `unpack`, `fail`) is not part of this model. Its behaviour is taken as follows:

- a reply that carries an error raises that error;
- a reply without the fields a call waits for raises ProtocolError;
- `fail` notifies the peer and then raises, so the guard's assignment after `fail` is never reached.

## Model

| member | source | states |
|---|---|---|
| ClientSession.Init | battleship_mp/client.py:62-69 | A new session starts in Started and remembers the opponent's identifier and whether it shoots first. |
| ClientSession.CheckTransition | battleship_mp/client.py:71-80 | A call succeeds exactly when the current state is in the call's allowed set, and then moves to its target state. Otherwise the session becomes Failed, a GameError notice goes to the peer, and GameError is raised. The opponent and first fields never change. |
| ClientSession.Split | battleship_mp/client.py:132 | Unpacking the placements raises ValueError exactly when there are none; otherwise it yields three columns as long as the input. |
| ClientSession.Zip | battleship_mp/client.py:133-145 | Zipping the received columns stops at the shortest column, and entry i is rebuilt from the i-th element of each column. |
| ClientSession.ZipSplit | battleship_mp/client.py:132-145 | Splitting a non-empty collection of placements and zipping the columns back gives the collection unchanged. |
| ClientSession.SplitZip | battleship_mp/client.py:132-145 | Zipping equally long, non-empty columns and splitting the result gives the columns back. |
| ClientSession.PlaceShips | battleship_mp/client.py:118-146 | The state moves as the table says: Started to Placed, anything else to Failed with GameError. An empty collection raises ValueError and sends nothing. Otherwise it sends one placement message whose columns zip back to the input. The result is the peer's zipped placements, or the error the reply raises. |
| ClientSession.AnnounceShot | battleship_mp/client.py:148-151 | Legal from Placed or Firing only. It moves to Firing and sends exactly the announced coordinate; from any other state it fails with GameError. |
| ClientSession.ExpectShot | battleship_mp/client.py:153-157 | Legal from Placed or Firing only. It moves to Firing and sends an expect. It succeeds exactly when the reply is a shot, and returns that shot's coordinate. A reply carrying an error, Deadlock among them, raises that error; any other reply raises ProtocolError. |
| ClientSession.EndGame | battleship_mp/client.py:159-170 | Legal exactly from Started, Placed and Firing, and then moves to Ended. A forfeit claims the opponent as winner and returns the opponent. Otherwise it returns the winner the peer reports. It succeeds exactly when the reply is an outcome. |
| ClientSession.TerminalStatesRejectAll | battleship_mp/client.py:71-79 | No call is allowed from Ended or Failed. |
| ClientSession.FailedIsAbsorbing | battleship_mp/client.py:71-79 | Once Failed, every sequence of calls leaves the session Failed. |
| ClientSession.LegalCallsMoveForward | battleship_mp/client.py:131-166 | A legal call moves strictly forward in Started < Placed < Firing < Ended. The one exception is a shot call from Firing, which stays in Firing. |
| ClientSession.ReplayAppend | battleship_mp/client.py:71-80 | Running two sequences of calls one after the other is running their concatenation. |
| ClientSession.ReplayNeverRegresses | battleship_mp/client.py:131-166 | A sequence of calls that does not end Failed never brings a session back to an earlier state. |
| ClientSession.ShotCallsKeepFiring | battleship_mp/client.py:150-155 | Any run of shot calls from Placed or Firing ends in Firing, or stays put if the run is empty. |
| ClientSession.DocumentedOrderSucceeds | battleship_mp/client.py:51-58 | The documented order, place, then any announces and expects, then end, takes a new session to Ended. |
| Server.Handshake | battleship_mp/server.py:37-43 | Each client is told the other's identifier, and exactly one of them, A, is told to shoot first. |
| Server.Exchange | battleship_mp/server.py:45-54 | Once both placements are read, each client receives the other's placement unchanged. A message that is not a placement is an error. |
| Server.Arbitrate | battleship_mp/server.py:82-99 | Without a claim in either message, the round goes on to shot resolution. A forfeit or concession by A makes B the winner. Failing that, one by B makes A the winner. Failing both, no winner. The winner is always one of the two clients. |
| Server.ArbitrationIgnoresOrder | battleship_mp/server.py:86-93 | Listing the clients the other way round changes the outcome only when both yield. |
| Server.ArbitrationCases | battleship_mp/server.py:82-99 | The named cases: a forfeit; a concession to the claimed winner; two conflicting self-claims, which give no winner; and two claims each naming the opponent, which give B. |
| Server.ResolveRound | battleship_mp/server.py:56-80 | A failure notice from either client abandons the round with its error, A's first, before any arbitration. Otherwise a claim finishes the match with the arbitrated winner sent to both. A message the action branch cannot read raises KeyError. A shot handed to a client is one its opponent announced in this round, or was buffered for it. Both announcing fills the buffer crosswise. A round continues only on an announce or a held buffer. |
| Server.RoundTable | battleship_mp/server.py:62-80 | The round table. An announce against an expect delivers the coordinate and acknowledges the announcer. Two announces are buffered crosswise. Two expects consume the buffer, or end in Deadlock for both when there is none. |
| Server.PlayRounds | battleship_mp/server.py:59-61 | The turn loop resolves rounds in order, carrying the buffer: the first result resolves the first round with the initial buffer, and each later result resolves its round with the buffer the previous round left. It stops at the first round that ends the match, and every earlier round continued. |
| Server.RoundsAreCausal | battleship_mp/server.py:59-61 | The first k rounds resolve the same whatever is read later: their results are a prefix of the full run. |
| Server.ShotsComeFromOpponent | battleship_mp/server.py:56-80 | Over a whole turn loop, every coordinate a client is handed was announced by its opponent in that round or an earlier one. |
| Server.RunShotsComeFromOpponent | battleship_mp/server.py:33-80 | Over a whole match with the turn loop wired in, every shot sent to a client was announced by its opponent in some round. |
| Server.SimultaneousFireCrossDelivers | battleship_mp/server.py:66-80 | A announces (2, 3) and B announces (0, 0); when both then expect, A receives (0, 0) and B receives (2, 3). |
| Server.Run | battleship_mp/server.py:33-35 | A match opens with the handshake messages. When both placements are well-formed, the swapped placements come next. Otherwise the match crashes. |
| Server.RunAsWritten | battleship_mp/server.py:33-35 | As written, a match sends at most the handshake and the placement to each client, never a shot, and never reaches the turn loop. |
| Server.RunSkipsTurnLoop | battleship_mp/server.py:33-35 | On a concrete match, the intended run delivers the announced shot; the run as written does not. |
| Server.RoundAsWritten | battleship_mp/server.py:59-80 | The action branch as written: two announces buffer each client's own coordinate for that client; an expecting A facing B's announce raises KeyError; a deadlock does not end the loop; a round with a claim raises KeyError. |
| Server.ExpectingAReadsOwnMessage | battleship_mp/server.py:75-78 | As written, an expecting A facing B's announce raises KeyError; as intended, A receives B's coordinate. |
| Server.BufferReturnsOwnShot | battleship_mp/server.py:66-80 | As written, after a simultaneous announce each client is handed back its own coordinate. |
| Server.DeadlockKeepsLooping | battleship_mp/server.py:59-65 | As written, a deadlock is reported and the loop continues; as intended, the match finishes with Deadlock for both. |
| Server.ArbitrateAsWritten | battleship_mp/server.py:82-99 | As written, every claim round ends with a "no winner" broadcast, even after a decision was broadcast. |
| Server.ForfeitAlsoBroadcastsNoWinner | battleship_mp/server.py:86-99 | As written, a forfeit by A broadcasts B and then no winner; as intended, B alone. |
| Server.ArbitrationIsFirstBroadcast | battleship_mp/server.py:82-99 | The corrected arbiter's single outcome is the first broadcast of the code as written. |
| Server.ClaimRoundRaisesKeyError | battleship_mp/server.py:61-80 | As written, any round with a claim and no failure notice broadcasts at least once and then raises KeyError in the action branch; as intended, it finishes the match with the first broadcast's winner. |
| Server.ForfeitThenKeyError | battleship_mp/server.py:61-99 | As written, a forfeit by A against an expecting B broadcasts B, then no winner, and then raises KeyError. |
| Matchmaking.Admit | battleship_mp/server.py:111-113 | A connection is admitted exactly when its first message is a hello, and the client is named by that hello's identifier. |
| Matchmaking.Register | battleship_mp/server.py:116-126 | With the slot empty, the client is stored and no game forms. With it full, a game forms from exactly the waiting client and the newcomer, the coin deciding who is A, and the slot is emptied. |
| Matchmaking.RegisterKeepsEveryone | battleship_mp/server.py:116-126 | One registration loses no client and duplicates none. |
| Matchmaking.RegisterAll | battleship_mp/server.py:111-127 | After any sequence of registrations, every client is in exactly one formed game or waiting in the slot, never both and never twice. |
| Matchmaking.PairsAndLeftover | battleship_mp/server.py:116-126 | n registrations form half as many games, rounded down, and leave the slot full exactly when an odd number is unmatched. |
| Matchmaking.EitherClientMayShootFirst | battleship_mp/server.py:121-124 | Depending on the coin, either the waiting client or the newcomer is told to shoot first, and each learns the other's name. |
| Board.Shots | example.py:38 | `SHOTS` has nine entries, each a cell of the board; `Board.ShotsEnumerateBoard` states that they are all nine cells in row-major order. |
| Board.ShotsEnumerateBoard | example.py:38 | `SHOTS` lists all nine cells exactly once, in row-major order. |
| Board.ReorderedShotsCoverBoard | example.py:87 | Any reordering of `SHOTS` consists of nine on-board shots covering every cell. |
| Board.CreatePositions | example.py:41-49 | For every draw, a size-3 and a size-1 ship, both on the board and sharing no cell. |
| Board.Show | example.py:58 | `str(n)` of a non-negative int is a non-empty string of decimal digits. |
| Board.ShowValue | example.py:58 | Reading back `str(n)` gives n. |
| Board.PyIndex | example.py:91 | Python list indexing: an index is valid exactly in -n..n-1 and then resolves to a position inside the list, which is the index itself when it is non-negative and the index plus n when it is negative. |
| Board.Write | example.py:91 | `board[y][x] = v` raises IndexError exactly when an index is out of Python's range, and keeps the board's shape. |
| Board.WriteFrame | example.py:91 | A successful write changes exactly the field its indices resolve to. |
| Board.WriteOnBoard | example.py:91 | Writing an on-board cell of a 3x3 board succeeds and changes that cell alone. |
| Board.PaintFrom | example.py:56-61 | Painting a ship's cells raises nothing but IndexError and keeps the board's shape. |
| Board.PaintAll | example.py:55-61 | Painting the placements in order raises nothing but IndexError and keeps the board's shape. |
| Board.PaintFromOnBoard | example.py:56-61 | Painting an on-board ship from offset o on writes its numeral on exactly its cells at offset o or later. |
| Board.PaintAllOnBoard | example.py:55-61 | Painting on-board placements leaves each cell showing the numeral of the last placement covering it, or what it held. |
| Board.Expand | example.py:52-62 | `expand` raises nothing but IndexError and otherwise gives a 3x3 board; `Board.ExpandLayout` states what each cell shows. |
| Board.ExpandLayout | example.py:52-62 | `expand` of on-board placements is a 3x3 board on which each covered cell shows `str(length)` of its last covering ship and every other cell shows " ". |
| Board.PaintedIsDigits | example.py:52-62 | A cell of an expanded board holds digits exactly when some placement covers it. |
| Board.TwoShipLayout | example.py:52-62 | Two disjoint on-board ships of sizes 3 and 1 expand to "3" on three cells, "1" on one, and " " elsewhere. |
| Board.CreatedBoardLayout | example.py:41-62 | The board of every `create_positions` draw shows "3" on the large ship, "1" on the small one, and " " on the other five cells. |
| Board.Defeated | example.py:65-67 | Defined by its body: no field holds digits. `Board.DefeatedIffNoShip` and `Board.AllMarkedIsDefeated` state what that means for an expanded and for a fully marked board. |
| Board.DefeatedIffNoShip | example.py:65-67 | A freshly expanded board is defeated exactly when no placement covers any cell. |
| Board.MarkAddsNoDigit | example.py:90-91 | Marking a shot keeps the board's shape, never adds a digit, and so never undoes a defeat. |
| Board.MarkAll | example.py:87-91 | Marking a sequence of shots keeps the board's shape. |
| Board.MarkAllOnBoard | example.py:87-91 | Marking on-board shots on a 3x3 board turns exactly those cells to "X". |
| Board.AllMarkedIsDefeated | example.py:65-67 | A 3x3 board whose every cell is "X" is defeated. |
| Board.AllShotsDefeat | example.py:87-107 | Marking all of `SHOTS`, in any order, defeats any 3x3 board: the reason the RuntimeError after the loop is never reached. |
| Example.Decide | example.py:93-104 | The outcome table: no defeat continues, a double defeat gives no winner, one's own defeat gives the enemy, and the enemy's defeat gives oneself. |
| Example.BothSidesDecideAlike | example.py:93-104 | Two players looking at the same pair of boards from opposite sides name the same winner, once either board is defeated. |
| Example.MarkKeepsHits | example.py:90-91 | Marking the next shot keeps every earlier shot marked. |
| Example.EveryShotFiredDefeats | example.py:87-107 | Once the whole reordered `SHOTS` is marked, the enemy board is defeated. |
| Example.Volley | example.py:88-105 | One pass of the loop: announce, expect, then mark both boards. Whenever it keeps firing or finishes, the reply was a shot, the enemy board is the old one marked with my shot, and my board is the old one marked with the received shot. To keep firing, neither board is defeated. A finish declares exactly what the outcome table gives for those two marked boards. |
| Example.Play | example.py:75-107 | `play` never runs out of shots and never trips the session guard. When it finishes, the session is Ended and the winner is the player, the enemy, or no one. |
| Agreement.HandshakeStartsSessions | battleship_mp/server.py:38-43 | The handshake starts two sessions in Started that name each other, and exactly one of them shoots first. |
| Agreement.PlacementRoundTrip | battleship_mp/server.py:45-54 | Each client's `place_ships` returns exactly the placements the other client passed in. |
| Agreement.ForfeitAgreed | battleship_mp/client.py:159-170 | A forfeit by A finishes the match with B as winner for both, whatever message other than a failure notice B sends; a failure notice from B abandons the round with B's error. A's `end_game` returns B. |
| Agreement.VerdictsAgreeWithArbiter | example.py:93-104 | Once a board is defeated, both example clients claim the same winner, the coordinator broadcasts that winner, and each `end_game` returns it. |
| Agreement.AnnouncedShotReachesOpponent | battleship_mp/server.py:71-74 | An announce against an expect hands the expecting session exactly the announced coordinate. |
| Agreement.DeadlockReachesBothClients | battleship_mp/server.py:62-65 | When both sessions expect a shot and none is held, the coordinator ends the round with Deadlock, and each client's `expect_shot` raises Deadlock. |

## Left out

- Transport: the websocket connection and server, the `send`/`recv` wrappers, `GameSession.connect` and `GameSession.start`, with the default-name choice in `start`. The handshake's reply is an input to `ClientSession.Init`.
- Concurrency: `gather`, `Future`, `ensure_future` and the rendezvous wait of `create_game`. Each round is one sequential step over the pair of messages it reads, and each registration is one step of the slot. The per-round barrier is therefore built in rather than proved.
- Channel failure: a peer's failure notice is a `Fail` request. A channel that closes or fails without a message is not modelled.
- The `messages` module is not part of this model. Its behaviour is assumed as described above.
- Randomness: `random.choice`, `random.random`, `getrandbits`, `randint` and `random.sample` become inputs. These are the coin of `Matchmaking.Register`, the draws of `Board.CreatePositions`, and the `order` of `Example.Play`.
- `draw`, the printing in `play`, the `simulate` driver, logging and the command-line entry point of `server.py`: these are output and process plumbing.
- The protocol version sent in the hello: the code carries it but never checks it.
- `docs/conf.py`: documentation configuration only.
- `exceptions.py`: it only declares the exception classes, which become constructors of `Protocol.Error`.
- ClientSession.AnnounceShot: reads no reply. Whether `communicate` without expected keys waits for an acknowledgement is decided in the `messages` module, which is not part of this model.
- Board.IsDigits: accepts ASCII digits only. Python's `str.isdigit` also accepts other Unicode digits, which never occur on these boards.
- Example.Play: the replies to `expect_shot` are a sequence with one entry per shot, and one reply is given for `end_game`. Which messages the peer sends is not constrained further.
- Server.Arbitrate: the final outcome is sent as `pack(error=GameEnd(winner))` (server.py:90 and :95), and `GameEnd` is not defined in the package's `exceptions.py`. The model sends a plain `Outcome(winner)` reply instead. Under the assumed `messages` behaviour, a reply carrying an error raises it, so as written `end_game` (client.py:169) would raise rather than return the winner.
- ClientSession.EndGame: returns the winner only for the substituted `Outcome(winner)` reply described in the previous line. The successful results stated by `ClientSession.EndGame`, `Agreement.ForfeitAgreed` and `Agreement.VerdictsAgreeWithArbiter` hold for that reply, not for the `GameEnd` error the code sends.
- Server.Exchange: forwards each placement unchanged. As written, server.py:52-53 spread `ships[1]` with `**`, which needs `recv` to return a mapping. server.py:113 unpacks the result of the same `recv` into two values, and server.py:17 types it `Iterable[Any]`. Whichever `unpack_keys` returns, one of the two call sites misbehaves: a TypeError at :52, or the key names bound at :113. `unpack_keys` lives in `messages`, which is not part of this model. The model takes the forwarding that `place_ships` expects, and names a client by its hello's identifier in `Matchmaking.Admit`.
- Server.Messages: a flattening helper with length bounds only; what the turn loop sends is stated by `Server.ResolveRound` and `Server.PlayRounds`.

## Findings

| source | as written | input that shows it | evidently intended | confidence | as-written member | corrected member |
|---|---|---|---|---|---|---|
| battleship_mp/server.py:75-78 | When A expects and B announces, A is sent `a_action["announce_shot"]`, a field A's message does not have | A sends `expect_shot`, B sends `announce_shot=(1, 1)`: KeyError | A is sent B's coordinate, `b_action["announce_shot"]` | not executed | Server.ExpectingAReadsOwnMessage | Server.RoundTable |
| battleship_mp/server.py:66-80 | After a simultaneous announce the buffer is `(a, b)`, and then A is sent `buffer[0]`, its own shot | A announces (2, 3), B announces (0, 0), both expect: A gets (2, 3), B gets (0, 0) | Each peer gets the opponent's coordinate: A gets (0, 0), B gets (2, 3) | not executed | Server.BufferReturnsOwnShot | Server.SimultaneousFireCrossDelivers |
| battleship_mp/server.py:59-65 | On a deadlock both peers are sent the error, and the `while True` loop reads another round | both expect with no buffer | The match ends after the Deadlock broadcast | not executed | Server.DeadlockKeepsLooping | Server.RoundTable |
| battleship_mp/server.py:86-99 | A forfeit or concession is broadcast, and execution falls through to the "no winner" broadcast | A sends `winner=B, forfeit=True`: both peers are sent B, then no winner | Only the decided winner is broadcast | not executed | Server.ForfeitAlsoBroadcastsNoWinner | Server.ArbitrationIsFirstBroadcast |
| battleship_mp/server.py:61-80 | After `handle_end` broadcasts, the claim messages fall through to the action branch, whose last case reads `announce_shot` from both messages | A sends `winner=B, forfeit=True`, B sends `expect_shot`: both peers are sent B, then no winner, then KeyError | The match ends after the outcome broadcast | not executed | Server.ClaimRoundRaisesKeyError | Server.ResolveRound |
| battleship_mp/server.py:33-35 | `run` awaits the handshake and the placement, and returns without calling `handle_shots` | A announces (1, 1) after placement: B is never sent the shot | The turn loop runs after the placement | not executed | Server.RunSkipsTurnLoop | Server.Run |

=== FILE: agreement.dfy ===
/** How the two sides of the protocol fit together: what the coordinator sends is what the
    client sessions expect, and what the clients send leads the coordinator to the outcome
    the clients themselves compute. */
module Agreement {
  import opened Protocol
  import opened ClientSession
  import opened Server
  import opened Example

  /** The handshake starts two fresh sessions that name each other and agree that exactly
      one of them shoots first. */
  lemma HandshakeStartsSessions(g: Game)
    ensures var hello := Handshake(g);
            var sa := Init(hello.0.identifier, hello.0.first);
            var sb := Init(hello.1.identifier, hello.1.first);
            sa.state == Started && sb.state == Started &&
            sa.opponent == g.b.identifier && sb.opponent == g.a.identifier &&
            sa.first != sb.first
  {
  }

  /** Placement end to end: each client's `place_ships` returns exactly the placements the
      other client passed in. */
  lemma PlacementRoundTrip(sa: Session, sb: Session, shipsA: seq<Ship>, shipsB: seq<Ship>, any: Reply)
    requires sa.state == Started && sb.state == Started
    requires |shipsA| > 0 && |shipsB| > 0
    ensures var requestA := PlaceShips(sa, shipsA, any).sent[0];
            var requestB := PlaceShips(sb, shipsB, any).sent[0];
            var forwarded := Exchange(requestA, requestB);
            forwarded.Ok? &&
            PlaceShips(sa, shipsA, forwarded.value.0).result == Ok(shipsB) &&
            PlaceShips(sb, shipsB, forwarded.value.1).result == Ok(shipsA)
  {
    ZipSplit(shipsA);
    ZipSplit(shipsB);
  }

  /** A forfeit ends the match for B whatever message B sends in that round; a failure notice
      from B instead raises B's error as it is read. The forfeiting client's `end_game`
      returns B as well. */
  lemma ForfeitAgreed(g: Game, sa: Session, w: Option<string>, rb: Request, buffer: Option<Buffer>, reply: Reply)
    requires sa.state in {Started, Placed, Firing} && sa.opponent == g.b.identifier
    requires reply.Outcome?
    ensures var call := EndGame(sa, w, true, reply);
            (!rb.Fail? ==> ResolveRound(g, call.sent[0], rb, buffer)
                           == Finish(Outcome(Some(g.b.identifier)), Outcome(Some(g.b.identifier)))) &&
            (rb.Fail? ==> ResolveRound(g, call.sent[0], rb, buffer) == Abandon(rb.error)) &&
            call.result == Ok(Some(g.b.identifier))
  {
  }

  /** When the example's boards show a decision, both clients claim the winner they computed,
      the coordinator broadcasts that same winner, and each client's `end_game` returns it. */
  lemma VerdictsAgreeWithArbiter(g: Game, sa: Session, sb: Session, dA: bool, dB: bool, buffer: Option<Buffer>)
    requires dA || dB
    requires sa.state == Firing && sa.opponent == g.b.identifier
    requires sb.state == Firing && sb.opponent == g.a.identifier
    ensures var va := Decide(dA, dB, g.a.identifier, g.b.identifier);
            var vb := Decide(dB, dA, g.b.identifier, g.a.identifier);
            va.Declare? && vb.Declare? && va.winner == vb.winner &&
            var claimA := EndGame(sa, va.winner, false, Ack).sent[0];
            var claimB := EndGame(sb, vb.winner, false, Ack).sent[0];
            ResolveRound(g, claimA, claimB, buffer) == Finish(Outcome(va.winner), Outcome(va.winner)) &&
            EndGame(sa, va.winner, false, Outcome(va.winner)).result == Ok(va.winner) &&
            EndGame(sb, vb.winner, false, Outcome(vb.winner)).result == Ok(vb.winner)
  {
    BothSidesDecideAlike(dA, dB, g.a.identifier, g.b.identifier);
  }

  /** Client calls and coordinator rounds line up: an announce against an expect hands the
      expecting session the announced coordinate. */
  lemma AnnouncedShotReachesOpponent(g: Game, sa: Session, sb: Session, c: Coord, buffer: Option<Buffer>)
    requires sa.state in {Placed, Firing} && sb.state in {Placed, Firing}
    ensures var announce := AnnounceShot(sa, c).sent[0];
            var expecting := ExpectShot(sb, Ack).sent[0];
            var round := ResolveRound(g, announce, expecting, buffer);
            round.Continue? && round.toB.Some? &&
            ExpectShot(sb, round.toB.value).result == Ok(c)
  {
  }

  /** Both clients waiting for a shot with none held: the coordinator sends Deadlock to both,
      and each `expect_shot` raises Deadlock. */
  lemma DeadlockReachesBothClients(g: Game, sa: Session, sb: Session)
    requires sa.state in {Placed, Firing} && sb.state in {Placed, Firing}
    ensures var round := ResolveRound(g, ExpectShot(sa, Ack).sent[0], ExpectShot(sb, Ack).sent[0], None);
            round.Finish? &&
            ExpectShot(sa, round.finalA).result == Err(Deadlock) &&
            ExpectShot(sb, round.finalB).result == Err(Deadlock)
  {
  }
}

=== FILE: board.dfy ===
/** The board helpers of example.py: the 3x3 board as rows of string fields, the list of
    all shots, random ship positions (with the random bits as inputs), expanding placements
    to a board, marking shots and checking for defeat. Board accesses follow Python's list
    indexing, where -n <= i < 0 counts from the end and anything else out of range raises
    IndexError. */
module Board {
  import opened Protocol

  /** A board: rows of fields; a field is " ", a ship's size as a numeral, or "X". */
  type Grid = seq<seq<string>>

  const Blank: string := " "
  const Hit: string := "X"

  predicate IsGrid(b: Grid) {
    |b| == 3 && forall i :: 0 <= i < |b| ==> |b[i]| == 3
  }

  predicate OnBoard(c: Coord) {
    0 <= c.0 < 3 && 0 <= c.1 < 3
  }

  // ---------------------------------------------------------------------------
  // Shots

  /** `SHOTS`: every cell, row by row. */
  function Shots(): (r: seq<Coord>)
    ensures |r| == 9
    ensures forall i :: 0 <= i < |r| ==> OnBoard(r[i])
  {
    seq(9, i requires 0 <= i < 9 => (i / 3, i % 3))
  }

  predicate RowMajorBefore(p: Coord, q: Coord) {
    p.0 < q.0 || (p.0 == q.0 && p.1 < q.1)
  }

  /** `SHOTS` lists each of the nine cells exactly once, in row-major order. */
  lemma ShotsEnumerateBoard()
    ensures |Shots()| == 9
    ensures forall i, j :: 0 <= i < j < |Shots()| ==> RowMajorBefore(Shots()[i], Shots()[j])
    ensures forall c :: c in Shots() <==> OnBoard(c)
  {
    var s := Shots();
    forall c | OnBoard(c)
      ensures c in s
    {
      var k := c.0 * 3 + c.1;
      assert s[k] == c;
    }
  }

  /** A reordering of `SHOTS` is nine on-board shots that hit every cell. */
  lemma ReorderedShotsCoverBoard(order: seq<Coord>)
    requires multiset(order) == multiset(Shots())
    ensures |order| == 9
    ensures forall k :: 0 <= k < |order| ==> OnBoard(order[k])
    ensures forall c :: OnBoard(c) ==> c in order
  {
    ShotsEnumerateBoard();
    assert |order| == |multiset(order)| == |multiset(Shots())| == 9;
    forall k | 0 <= k < |order|
      ensures OnBoard(order[k])
    {
      assert order[k] in multiset(order);
    }
    forall c | OnBoard(c)
      ensures c in order
    {
      assert c in multiset(Shots());
    }
  }

  // ---------------------------------------------------------------------------
  // Ships

  /** The o-th cell a ship covers. */
  function CellAt(s: Ship, o: int): Coord {
    if s.vertical then (s.origin.0 + o, s.origin.1) else (s.origin.0, s.origin.1 + o)
  }

  /** How far along the ship a cell lies. */
  function Offset(s: Ship, c: Coord): int {
    if s.vertical then c.0 - s.origin.0 else c.1 - s.origin.1
  }

  /** Whether a ship covers a cell; a ship of size 0 or less covers nothing. */
  predicate Covers(s: Ship, c: Coord) {
    0 <= Offset(s, c) < s.size && CellAt(s, Offset(s, c)) == c
  }

  /** Whether every cell of a ship lies on the board. */
  predicate InBounds(s: Ship) {
    s.size <= 0 || (OnBoard(s.origin) && OnBoard(CellAt(s, s.size - 1)))
  }

  lemma InBoundsCells(s: Ship, o: int)
    requires InBounds(s) && 0 <= o < s.size
    ensures OnBoard(CellAt(s, o)) && Covers(s, CellAt(s, o)) && Offset(s, CellAt(s, o)) == o
  {
  }

  /** `create_positions` with its random draws as inputs: `flipVertical` and `flipOffset` are
      the two `getrandbits(1)` draws (true for 1) and `offset1` is `randint(0, 2)`.
      Whatever the draws, a size-3 and a size-1 ship lie on the board without touching. */
  function CreatePositions(flipVertical: bool, flipOffset: bool, offset1: int): (r: (Ship, Ship))
    requires 0 <= offset1 <= 2
    ensures r.0.size == 3 && r.1.size == 1
    ensures InBounds(r.0) && InBounds(r.1)
    ensures forall c :: Covers(r.0, c) ==> !Covers(r.1, c)
  {
    var vertical3 := !flipVertical;
    var offset3 := if flipOffset then 2 else 0;
    (Ship(3, if vertical3 then (0, offset3) else (offset3, 0), vertical3),
     Ship(1, if vertical3 then (offset1, 2 - offset3) else (2 - offset3, offset1), vertical3))
  }

  // ---------------------------------------------------------------------------
  // Numerals

  function DigitChar(d: nat): char
    requires d < 10
  {
    "0123456789"[d]
  }

  predicate IsDigits(s: string) {
    |s| > 0 && forall k :: 0 <= k < |s| ==> '0' <= s[k] <= '9'
  }

  /** `str(n)` for a non-negative int: its decimal numeral. */
  function Show(n: nat): (r: string)
    ensures IsDigits(r)
    decreases n
  {
    if n < 10 then [DigitChar(n)] else Show(n / 10) + [DigitChar(n % 10)]
  }

  /** The value of a numeral. */
  function Value(s: string): nat
    decreases |s|
  {
    if |s| == 0 then 0
    else Value(s[..|s| - 1]) * 10 + (if '0' <= s[|s| - 1] <= '9' then (s[|s| - 1] - '0') as nat else 0)
  }

  /** Reading back a shown number gives the number. */
  lemma {:induction false} ShowValue(n: nat)
    ensures Value(Show(n)) == n
    decreases n
  {
    var s := Show(n);
    if n >= 10 {
      ShowValue(n / 10);
      assert s[..|s| - 1] == Show(n / 10);
    }
  }

  // ---------------------------------------------------------------------------
  // Writing to a board

  /** Python's list index: in range, or counted from the end when negative. */
  function PyIndex(i: int, n: nat): (r: Option<nat>)
    ensures r.Some? <==> -(n as int) <= i < n
    ensures r.Some? ==> r.value < n
    ensures 0 <= i < n ==> r == Some(i)
    ensures -(n as int) <= i < 0 ==> r == Some((i + n) as nat)
  {
    if 0 <= i < n then Some(i) else if -(n as int) <= i < 0 then Some(i + n) else None
  }

  predicate SameShape(a: Grid, b: Grid) {
    |a| == |b| && forall i :: 0 <= i < |a| ==> |a[i]| == |b[i]|
  }

  /** `board[y][x] = v`. */
  function Write(b: Grid, y: int, x: int, v: string): (r: Result<Grid>)
    ensures r.Err? ==> r.error == IndexError
    ensures r.Ok? ==> SameShape(r.value, b)
    ensures r.Ok? <==> PyIndex(y, |b|).Some? && PyIndex(x, |b[PyIndex(y, |b|).value]|).Some?
  {
    match PyIndex(y, |b|)
    case None => Err(IndexError)
    case Some(row) =>
      match PyIndex(x, |b[row]|)
      case None => Err(IndexError)
      case Some(col) => Ok(b[row := b[row][col := v]])
  }

  /** A successful write changes the one field its indices resolve to and nothing else. */
  lemma WriteFrame(b: Grid, y: int, x: int, v: string)
    requires Write(b, y, x, v).Ok?
    ensures var row := PyIndex(y, |b|).value;
            var col := PyIndex(x, |b[row]|).value;
            forall i, j :: 0 <= i < |b| && 0 <= j < |b[i]| ==>
              Write(b, y, x, v).value[i][j] == (if i == row && j == col then v else b[i][j])
  {
  }

  /** Writing inside a 3x3 board changes exactly the cell written. */
  lemma WriteOnBoard(b: Grid, c: Coord, v: string)
    requires IsGrid(b) && OnBoard(c)
    ensures Write(b, c.0, c.1, v).Ok?
    ensures IsGrid(Write(b, c.0, c.1, v).value)
    ensures forall i, j :: 0 <= i < 3 && 0 <= j < 3 ==>
              Write(b, c.0, c.1, v).value[i][j] == (if (i, j) == c then v else b[i][j])
  {
  }

  // ---------------------------------------------------------------------------
  // Expanding placements

  /** Writing the ship's numeral on its cells from offset `o` on. */
  function PaintFrom(b: Grid, s: Ship, o: nat): (r: Result<Grid>)
    ensures r.Err? ==> r.error == IndexError
    ensures r.Ok? ==> SameShape(r.value, b)
    decreases s.size - o
  {
    if o >= s.size then Ok(b)
    else
      var c := CellAt(s, o);
      match Write(b, c.0, c.1, Show(s.size))
      case Err(e) => Err(e)
      case Ok(b') => PaintFrom(b', s, o + 1)
  }

  /** Painting the placements in order; a later ship overwrites an earlier one. */
  function PaintAll(b: Grid, ps: seq<Ship>): (r: Result<Grid>)
    ensures r.Err? ==> r.error == IndexError
    ensures r.Ok? ==> SameShape(r.value, b)
    decreases |ps|
  {
    if |ps| == 0 then Ok(b)
    else
      match PaintAll(b, ps[..|ps| - 1])
      case Err(e) => Err(e)
      case Ok(b') => PaintFrom(b', ps[|ps| - 1], 0)
  }

  function EmptyGrid(): Grid {
    seq(3, _ => seq(3, _ => Blank))
  }

  /** `expand`: the 3x3 board showing the given placements. */
  function Expand(ps: seq<Ship>): (r: Result<Grid>)
    ensures r.Err? ==> r.error == IndexError
    ensures r.Ok? ==> IsGrid(r.value)
  {
    PaintAll(EmptyGrid(), ps)
  }

  /** The field a cell should show after painting `ps` over `base`: the numeral of the
      last placement covering it, or `base` when none does. */
  function Painted(base: string, ps: seq<Ship>, c: Coord): string
    decreases |ps|
  {
    if |ps| == 0 then base
    else if Covers(ps[|ps| - 1], c) then Show(ps[|ps| - 1].size as nat)
    else Painted(base, ps[..|ps| - 1], c)
  }

  lemma PaintFromOnBoard(b: Grid, s: Ship, o: nat)
    requires IsGrid(b) && InBounds(s)
    ensures PaintFrom(b, s, o).Ok? && IsGrid(PaintFrom(b, s, o).value)
    ensures forall i, j :: 0 <= i < 3 && 0 <= j < 3 ==>
              PaintFrom(b, s, o).value[i][j]
              == (if Covers(s, (i, j)) && Offset(s, (i, j)) >= o then Show(s.size as nat) else b[i][j])
  {
    PaintFromShape(b, s, o);
    forall i, j | 0 <= i < 3 && 0 <= j < 3
      ensures PaintFrom(b, s, o).value[i][j]
              == (if Covers(s, (i, j)) && Offset(s, (i, j)) >= o then Show(s.size as nat) else b[i][j])
    {
      PaintFromCell(b, s, o, (i, j));
    }
  }

  /** Painting an on-board ship onto a 3x3 board succeeds and keeps it 3x3. */
  lemma {:induction false} PaintFromShape(b: Grid, s: Ship, o: nat)
    requires IsGrid(b) && InBounds(s)
    ensures PaintFrom(b, s, o).Ok? && IsGrid(PaintFrom(b, s, o).value)
    decreases s.size - o
  {
    if o < s.size {
      var b' := PaintStep(b, s, o);
      PaintFromShape(b', s, o + 1);
    }
  }

  /** What one cell shows after painting an on-board ship from offset `o` on. */
  lemma {:induction false} PaintFromCell(b: Grid, s: Ship, o: nat, c: Coord)
    requires IsGrid(b) && InBounds(s) && OnBoard(c)
    ensures PaintFrom(b, s, o).Ok? && IsGrid(PaintFrom(b, s, o).value)
    ensures PaintFrom(b, s, o).value[c.0][c.1]
            == (if Covers(s, c) && Offset(s, c) >= o then Show(s.size as nat) else b[c.0][c.1])
    decreases s.size - o
  {
    PaintFromShape(b, s, o);
    if o < s.size {
      var b' := PaintStep(b, s, o);
      PaintFromCell(b', s, o + 1, c);
      PaintCell(s, o, c, b[c.0][c.1], b'[c.0][c.1], PaintFrom(b', s, o + 1).value[c.0][c.1]);
    }
  }

  /** The first step of painting from `o`: the board after writing the o-th cell. */
  lemma PaintStep(b: Grid, s: Ship, o: nat) returns (b': Grid)
    requires IsGrid(b) && InBounds(s) && o < s.size
    ensures IsGrid(b') && PaintFrom(b, s, o) == PaintFrom(b', s, o + 1)
    ensures forall i, j :: 0 <= i < 3 && 0 <= j < 3 ==>
              b'[i][j] == (if (i, j) == CellAt(s, o) then Show(s.size as nat) else b[i][j])
  {
    var c := CellAt(s, o);
    InBoundsCells(s, o);
    WriteOnBoard(b, c, Show(s.size));
    b' := Write(b, c.0, c.1, Show(s.size)).value;
  }

  /** One cell across one step of painting: writing the o-th cell, then the rest. */
  lemma PaintCell(s: Ship, o: nat, cell: Coord, before: string, mid: string, after: string)
    requires o < s.size
    requires mid == (if cell == CellAt(s, o) then Show(s.size as nat) else before)
    requires after == (if Covers(s, cell) && Offset(s, cell) >= o + 1 then Show(s.size as nat) else mid)
    ensures after == (if Covers(s, cell) && Offset(s, cell) >= o then Show(s.size as nat) else before)
  {
    if cell == CellAt(s, o) {
      assert Offset(s, cell) == o;
    }
  }

  lemma {:induction false} PaintAllOnBoard(b: Grid, ps: seq<Ship>)
    requires IsGrid(b)
    requires forall k :: 0 <= k < |ps| ==> InBounds(ps[k])
    ensures PaintAll(b, ps).Ok? && IsGrid(PaintAll(b, ps).value)
    ensures forall i, j :: 0 <= i < 3 && 0 <= j < 3 ==>
              PaintAll(b, ps).value[i][j] == Painted(b[i][j], ps, (i, j))
    decreases |ps|
  {
    if |ps| > 0 {
      var init := ps[..|ps| - 1];
      var last := ps[|ps| - 1];
      PaintAllOnBoard(b, init);
      var b' := PaintAll(b, init).value;
      PaintFromOnBoard(b', last, 0);
    }
  }

  /** `expand` of on-board placements is a 3x3 board whose every cell shows the numeral of
      the last placement covering it, and " " when none does. */
  lemma ExpandLayout(ps: seq<Ship>)
    requires forall k :: 0 <= k < |ps| ==> InBounds(ps[k])
    ensures Expand(ps).Ok? && IsGrid(Expand(ps).value)
    ensures forall i, j :: 0 <= i < 3 && 0 <= j < 3 ==> Expand(ps).value[i][j] == Painted(Blank, ps, (i, j))
  {
    PaintAllOnBoard(EmptyGrid(), ps);
  }

  /** A painted cell holds a numeral exactly when some placement covers it. */
  lemma {:induction false} PaintedIsDigits(ps: seq<Ship>, c: Coord)
    ensures IsDigits(Painted(Blank, ps, c)) <==> exists k :: 0 <= k < |ps| && Covers(ps[k], c)
    decreases |ps|
  {
    if |ps| > 0 {
      var init := ps[..|ps| - 1];
      PaintedIsDigits(init, c);
      if exists k :: 0 <= k < |ps| && Covers(ps[k], c) {
        var k :| 0 <= k < |ps| && Covers(ps[k], c);
        if k < |ps| - 1 {
          assert init[k] == ps[k];
        }
      }
      if exists k :: 0 <= k < |init| && Covers(init[k], c) {
        var k :| 0 <= k < |init| && Covers(init[k], c);
        assert ps[k] == init[k];
      }
    } else {
      assert !IsDigits(Blank) by { assert Blank[0] == ' '; }
    }
  }

  /** The field of a cell under two placements: the second one's numeral wins. */
  lemma PaintedTwo(first: Ship, second: Ship, c: Coord)
    ensures Painted(Blank, [first, second], c)
            == if Covers(second, c) then Show(second.size as nat)
               else if Covers(first, c) then Show(first.size as nat) else Blank
  {
    var ps := [first, second];
    assert ps[..1] == [first];
    assert [first][..0] == [];
    assert Painted(Blank, [first], c) == if Covers(first, c) then Show(first.size as nat) else Blank;
    assert Painted(Blank, ps, c)
           == if Covers(second, c) then Show(second.size as nat) else Painted(Blank, [first], c);
  }

  /** Two on-board ships of sizes 3 and 1 that share no cell show "3", "1" and " ". */
  lemma TwoShipLayout(large: Ship, small: Ship)
    requires large.size == 3 && small.size == 1 && InBounds(large) && InBounds(small)
    requires forall c :: Covers(large, c) ==> !Covers(small, c)
    ensures var b := Expand([large, small]);
            b.Ok? && IsGrid(b.value) &&
            forall i, j :: 0 <= i < 3 && 0 <= j < 3 ==>
              b.value[i][j] == (if Covers(large, (i, j)) then "3"
                                else if Covers(small, (i, j)) then "1" else Blank)
  {
    ExpandLayout([large, small]);
    assert Show(3) == "3" && Show(1) == "1";
    forall i, j | 0 <= i < 3 && 0 <= j < 3
      ensures Painted(Blank, [large, small], (i, j))
              == (if Covers(large, (i, j)) then "3" else if Covers(small, (i, j)) then "1" else Blank)
    {
      PaintedTwo(large, small, (i, j));
    }
  }

  /** A two-ship position from `create_positions` shows "3" on the three cells of the large
      ship, "1" on the small one and " " on the other five. */
  lemma CreatedBoardLayout(flipVertical: bool, flipOffset: bool, offset1: int)
    requires 0 <= offset1 <= 2
    ensures var ships := CreatePositions(flipVertical, flipOffset, offset1);
            var b := Expand([ships.0, ships.1]);
            b.Ok? && IsGrid(b.value) &&
            forall i, j :: 0 <= i < 3 && 0 <= j < 3 ==>
              b.value[i][j] == (if Covers(ships.0, (i, j)) then "3"
                                else if Covers(ships.1, (i, j)) then "1" else Blank)
  {
    var ships := CreatePositions(flipVertical, flipOffset, offset1);
    TwoShipLayout(ships.0, ships.1);
  }

  // ---------------------------------------------------------------------------
  // Shots and defeat

  /** `defeated`: no field of the board holds a numeral. */
  predicate Defeated(b: Grid) {
    !exists i, j :: 0 <= i < |b| && 0 <= j < |b[i]| && IsDigits(b[i][j])
  }

  /** An expanded board of on-board placements is defeated exactly when no placement covers
      any cell, that is, when it has no ship. */
  lemma DefeatedIffNoShip(ps: seq<Ship>)
    requires forall k :: 0 <= k < |ps| ==> InBounds(ps[k])
    ensures Expand(ps).Ok?
    ensures Defeated(Expand(ps).value) <==>
              forall k, i, j :: 0 <= k < |ps| && 0 <= i < 3 && 0 <= j < 3 ==> !Covers(ps[k], (i, j))
  {
    ExpandLayout(ps);
    var b := Expand(ps).value;
    forall i, j | 0 <= i < 3 && 0 <= j < 3
      ensures IsDigits(b[i][j]) <==> exists k :: 0 <= k < |ps| && Covers(ps[k], (i, j))
    {
      PaintedIsDigits(ps, (i, j));
    }
  }

  /** `board[y][x] = "X"`. */
  function Mark(b: Grid, c: Coord): Result<Grid> {
    Write(b, c.0, c.1, Hit)
  }

  /** Marking a shot never adds a numeral, so it never undoes a defeat. */
  lemma MarkAddsNoDigit(b: Grid, c: Coord)
    requires Mark(b, c).Ok?
    ensures SameShape(Mark(b, c).value, b)
    ensures forall i, j :: 0 <= i < |b| && 0 <= j < |b[i]| && IsDigits(Mark(b, c).value[i][j]) ==> IsDigits(b[i][j])
    ensures Defeated(b) ==> Defeated(Mark(b, c).value)
  {
    assert !IsDigits(Hit) by { assert Hit[0] == 'X'; }
  }

  /** Whether the cell is on the board and marked. */
  predicate HitAt(b: Grid, c: Coord) {
    0 <= c.0 < |b| && 0 <= c.1 < |b[c.0]| && b[c.0][c.1] == Hit
  }

  /** Marking a sequence of shots in order. */
  function MarkAll(b: Grid, cs: seq<Coord>): (r: Result<Grid>)
    ensures r.Ok? ==> SameShape(r.value, b)
    decreases |cs|
  {
    if |cs| == 0 then Ok(b)
    else
      match Mark(b, cs[0])
      case Err(e) => Err(e)
      case Ok(b') => MarkAll(b', cs[1..])
  }

  /** Marking on-board shots on a 3x3 board hits exactly those cells. */
  lemma {:induction false} MarkAllOnBoard(b: Grid, cs: seq<Coord>)
    requires IsGrid(b)
    requires forall k :: 0 <= k < |cs| ==> OnBoard(cs[k])
    ensures MarkAll(b, cs).Ok? && IsGrid(MarkAll(b, cs).value)
    ensures forall i, j :: 0 <= i < 3 && 0 <= j < 3 ==>
              MarkAll(b, cs).value[i][j] == (if (i, j) in cs then Hit else b[i][j])
    decreases |cs|
  {
    if |cs| > 0 {
      WriteOnBoard(b, cs[0], Hit);
      var b' := Mark(b, cs[0]).value;
      MarkAllOnBoard(b', cs[1..]);
      forall i, j | 0 <= i < 3 && 0 <= j < 3
        ensures MarkAll(b, cs).value[i][j] == (if (i, j) in cs then Hit else b[i][j])
      {
        assert cs == [cs[0]] + cs[1..];
        assert (i, j) in cs <==> (i, j) == cs[0] || (i, j) in cs[1..];
      }
    }
  }

  /** A 3x3 board on which every cell is marked is defeated. */
  lemma AllMarkedIsDefeated(b: Grid)
    requires IsGrid(b)
    requires forall i, j :: 0 <= i < 3 && 0 <= j < 3 ==> b[i][j] == Hit
    ensures Defeated(b)
  {
    assert !IsDigits(Hit) by { assert Hit[0] == 'X'; }
  }

  /** Once every shot of `SHOTS` has been marked, in any order, the board is defeated: the
      reason the example never runs out of shots. */
  lemma AllShotsDefeat(b: Grid, order: seq<Coord>)
    requires IsGrid(b)
    requires multiset(order) == multiset(Shots())
    ensures MarkAll(b, order).Ok? && Defeated(MarkAll(b, order).value)
  {
    ReorderedShotsCoverBoard(order);
    MarkAllOnBoard(b, order);
    AllMarkedIsDefeated(MarkAll(b, order).value);
  }
}

=== FILE: matchmaking.dfy ===
/** The matchmaking slot of battleship_mp/server.py (class Server): at most one client
    waits for a partner; the next registration forms a game with it. The wait on a
    future is replaced by the registration that completes it, and the coin toss that
    decides who shoots first by an input. */
module Matchmaking {
  import opened Protocol
  import opened Server

  /** The server's pending slot. */
  datatype Matchmaker = Matchmaker(pending: Option<Client>)

  /** The first message of a connection must be a hello; its identifier names the client. */
  function Admit(hello: Request, channel: nat): (r: Result<Client>)
    ensures r.Ok? <==> hello.Hello?
    ensures r.Ok? ==> r.value.identifier == hello.identifier && r.value.channel == channel
    ensures r.Err? ==> r.error == Received(hello)
  {
    if hello.Hello? then Ok(Client(hello.identifier, channel)) else Err(Received(hello))
  }

  /** The slot after a registration, and the game it formed, if any. */
  datatype Registration = Registration(slot: Matchmaker, game: Option<Game>)

  /** `create_game`: an empty slot stores the client; a full slot forms a game from the
      waiting client and this one and is emptied. `swap` is the coin toss that lets the
      newcomer shoot first. */
  function Register(m: Matchmaker, c: Client, swap: bool): (r: Registration)
    ensures m.pending.None? ==> r.slot.pending == Some(c) && r.game.None?
    ensures m.pending.Some? ==> r.slot.pending.None? && r.game.Some?
    ensures m.pending.Some? ==>
              multiset{r.game.value.a, r.game.value.b} == multiset{m.pending.value, c}
    ensures m.pending.Some? ==> r.game.value.a == (if swap then c else m.pending.value)
  {
    match m.pending
    case None => Registration(Matchmaker(Some(c)), None)
    case Some(peer) =>
      var game := if swap then Game(c, peer) else Game(peer, c);
      Registration(Matchmaker(None), Some(game))
  }

  function Formed(g: Option<Game>): seq<Game> {
    if g.Some? then [g.value] else []
  }

  /** The clients taking part in a list of games, with multiplicity. */
  function Members(games: seq<Game>): multiset<Client>
    decreases |games|
  {
    if |games| == 0 then multiset{} else multiset{games[0].a, games[0].b} + Members(games[1..])
  }

  function Waiting(m: Matchmaker): multiset<Client> {
    if m.pending.Some? then multiset{m.pending.value} else multiset{}
  }

  function Count(m: Matchmaker): nat {
    if m.pending.Some? then 1 else 0
  }

  lemma MembersAppend(xs: seq<Game>, ys: seq<Game>)
    ensures Members(xs + ys) == Members(xs) + Members(ys)
    decreases |xs|
  {
    if |xs| > 0 {
      assert (xs + ys)[1..] == xs[1..] + ys;
      MembersAppend(xs[1..], ys);
    } else {
      assert xs + ys == ys;
    }
  }

  /** One registration loses no client and duplicates none. */
  lemma RegisterKeepsEveryone(m: Matchmaker, c: Client, swap: bool)
    ensures Members(Formed(Register(m, c, swap).game)) + Waiting(Register(m, c, swap).slot)
            == Waiting(m) + multiset{c}
  {
    var step := Register(m, c, swap);
    if step.game.Some? {
      assert Formed(step.game)[1..] == [];
    }
  }

  lemma Regroup<T>(games: multiset<T>, slot: multiset<T>, formed: multiset<T>, mid: multiset<T>,
                   before: multiset<T>, one: multiset<T>, tail: multiset<T>)
    requires games + slot == mid + tail
    requires formed + mid == before + one
    ensures (formed + games) + slot == before + (one + tail)
  {
    forall x
      ensures ((formed + games) + slot)[x] == (before + (one + tail))[x]
    {
      assert (games + slot)[x] == (mid + tail)[x];
      assert (formed + mid)[x] == (before + one)[x];
    }
  }

  /** One registration followed by the rest: the clients of the rest plus those of this
      step are all the clients. */
  lemma RegisterStep(m: Matchmaker, c: Client, swap: bool, games: seq<Game>, slot: Matchmaker, tail: multiset<Client>)
    requires Members(games) + Waiting(slot) == Waiting(Register(m, c, swap).slot) + tail
    ensures Members(Formed(Register(m, c, swap).game) + games) + Waiting(slot) == Waiting(m) + (multiset{c} + tail)
  {
    var step := Register(m, c, swap);
    MembersAppend(Formed(step.game), games);
    RegisterKeepsEveryone(m, c, swap);
    Regroup(Members(games), Waiting(slot), Members(Formed(step.game)), Waiting(step.slot), Waiting(m), multiset{c}, tail);
  }

  /** A run of registrations, one coin toss each, in arrival order. Every registered client
      ends up in exactly one game or in the slot, never both and never twice. */
  function RegisterAll(m: Matchmaker, cs: seq<Client>, swaps: seq<bool>): (r: (Matchmaker, seq<Game>))
    requires |swaps| == |cs|
    ensures Members(r.1) + Waiting(r.0) == Waiting(m) + multiset(cs)
    decreases |cs|
  {
    if |cs| == 0 then (m, [])
    else
      var step := Register(m, cs[0], swaps[0]);
      var rest := RegisterAll(step.slot, cs[1..], swaps[1..]);
      RegisterStep(m, cs[0], swaps[0], rest.1, rest.0, multiset(cs[1..]));
      HeadAndTail(cs);
      (rest.0, Formed(step.game) + rest.1)
  }

  lemma HeadAndTail<T>(xs: seq<T>)
    requires |xs| > 0
    ensures multiset(xs) == multiset{xs[0]} + multiset(xs[1..])
  {
    assert xs == [xs[0]] + xs[1..];
  }

  /** Games are formed in pairs, and the slot is full exactly when an odd number of clients
      is unmatched. */
  lemma {:induction false} PairsAndLeftover(m: Matchmaker, cs: seq<Client>, swaps: seq<bool>)
    requires |swaps| == |cs|
    ensures |RegisterAll(m, cs, swaps).1| == (|cs| + Count(m)) / 2
    ensures RegisterAll(m, cs, swaps).0.pending.Some? <==> (|cs| + Count(m)) % 2 == 1
    decreases |cs|
  {
    if |cs| > 0 {
      var step := Register(m, cs[0], swaps[0]);
      var rest := RegisterAll(step.slot, cs[1..], swaps[1..]);
      assert RegisterAll(m, cs, swaps) == (rest.0, Formed(step.game) + rest.1);
      PairsAndLeftover(step.slot, cs[1..], swaps[1..]);
      assert 2 * |Formed(step.game)| + Count(step.slot) == Count(m) + 1;
    }
  }

  /** Who shoots first is not tied to arrival order: with the coin down the waiting client
      is told to shoot first, with the coin up the newcomer is; each learns the other's name. */
  lemma EitherClientMayShootFirst(p: Client, c: Client)
    ensures Handshake(Register(Matchmaker(Some(p)), c, false).game.value).0 == Greeting(c.identifier, true)
    ensures Handshake(Register(Matchmaker(Some(p)), c, false).game.value).1 == Greeting(p.identifier, false)
    ensures Handshake(Register(Matchmaker(Some(p)), c, true).game.value).0 == Greeting(p.identifier, true)
    ensures Handshake(Register(Matchmaker(Some(p)), c, true).game.value).1 == Greeting(c.identifier, false)
  {
  }
}

=== FILE: play.dfy ===
/** The example client of example.py (`play`): place two random ships, fire every shot of
    `SHOTS` in a random order while receiving the opponent's, and end the game as soon as a
    board is defeated. The session calls go through the client guard; the peer's replies,
    the random draws and the random order of shots are inputs. */
module Example {
  import opened Protocol
  import opened ClientSession
  import opened Board

  /** What one check of the two boards decides. */
  datatype Verdict = KeepFiring | Declare(winner: Option<string>)

  /** The outcome table of `play`, given (my board defeated, enemy board defeated). */
  function Decide(myDefeat: bool, enemyDefeat: bool, name: string, enemy: string): (v: Verdict)
    ensures v.KeepFiring? <==> !myDefeat && !enemyDefeat
    ensures myDefeat && enemyDefeat ==> v == Declare(None)
    ensures myDefeat && !enemyDefeat ==> v == Declare(Some(enemy))
    ensures !myDefeat && enemyDefeat ==> v == Declare(Some(name))
  {
    if !myDefeat && !enemyDefeat then KeepFiring
    else if myDefeat && enemyDefeat then Declare(None)
    else if myDefeat then Declare(Some(enemy))
    else Declare(Some(name))
  }

  /** Two players looking at the same pair of boards from opposite sides name the same winner. */
  lemma BothSidesDecideAlike(dA: bool, dB: bool, a: string, b: string)
    requires dA || dB
    ensures Decide(dA, dB, a, b) == Decide(dB, dA, b, a)
    ensures Decide(dA, dB, a, b).Declare?
  {
  }

  /** Marking the i-th shot of the order keeps the earlier shots marked. */
  lemma MarkKeepsHits(b: Grid, order: seq<Coord>, i: nat)
    requires IsGrid(b) && i < |order|
    requires forall k :: 0 <= k < |order| ==> OnBoard(order[k])
    requires forall k :: 0 <= k < i ==> HitAt(b, order[k])
    ensures Mark(b, order[i]).Ok? && IsGrid(Mark(b, order[i]).value)
    ensures forall k :: 0 <= k <= i ==> HitAt(Mark(b, order[i]).value, order[k])
  {
    WriteOnBoard(b, order[i], Hit);
  }

  /** Once the whole reordered `SHOTS` has been marked, the board is defeated. */
  lemma EveryShotFiredDefeats(b: Grid, order: seq<Coord>)
    requires IsGrid(b)
    requires multiset(order) == multiset(Shots())
    requires forall k :: 0 <= k < |order| ==> HitAt(b, order[k])
    ensures Defeated(b)
  {
    ReorderedShotsCoverBoard(order);
    forall y, x | 0 <= y < 3 && 0 <= x < 3
      ensures b[y][x] == Hit
    {
      assert (y, x) in order;
      var k :| 0 <= k < |order| && order[k] == (y, x);
      assert HitAt(b, order[k]);
    }
    AllMarkedIsDefeated(b);
  }

  /** How a run of `play` ends: the winner it announced, an error raised by a call, or the
      RuntimeError raised when every shot was fired without a decision. */
  datatype Ending = Finished(winner: Option<string>) | Stopped(error: Error) | OutOfShots

  /** One pass of the shot loop of `play`: announce `shot`, expect the peer's, mark both
      boards, and end the game if either board is defeated. `None` means keep firing. */
  method Volley(s: Session, name: string, shot: Coord, incoming: Reply, final: Reply, mine: Grid, theirs: Grid)
    returns (r: Option<Ending>, last: Session, mine': Grid, theirs': Grid)
    requires s.state in {Placed, Firing}
    requires IsGrid(mine) && IsGrid(theirs) && OnBoard(shot)
    ensures last.opponent == s.opponent
    ensures r.None? ==> last.state == Firing && IsGrid(mine') && IsGrid(theirs')
    ensures r.None? ==> Mark(theirs, shot) == Ok(theirs') && !Defeated(theirs') && !Defeated(mine')
    ensures r.Some? ==> !r.value.OutOfShots? && last.state != Failed
    ensures r.None? || (r.Some? && r.value.Finished?) ==>
              incoming.Shot? && Mark(theirs, shot) == Ok(theirs') && Mark(mine, incoming.coord) == Ok(mine')
    ensures r.Some? && r.value.Finished? ==>
              last.state == Ended && IsGrid(mine') && IsGrid(theirs') &&
              Decide(Defeated(mine'), Defeated(theirs'), name, s.opponent) == Declare(r.value.winner)
  {
    mine', theirs' := mine, theirs;
    var announced := AnnounceShot(s, shot);
    var expected := ExpectShot(announced.session, incoming);
    last := expected.session;
    if expected.result.Err? {
      return Some(Stopped(expected.result.error)), last, mine', theirs';
    }
    WriteOnBoard(theirs, shot, Hit);
    theirs' := Mark(theirs, shot).value;
    var hit := Mark(mine, expected.result.value);
    if hit.Err? {
      return Some(Stopped(hit.error)), last, mine', theirs';
    }
    mine' := hit.value;
    match Decide(Defeated(mine'), Defeated(theirs'), name, s.opponent)
    case KeepFiring =>
      r := None;
    case Declare(w) =>
      var ended := EndGame(last, w, false, final);
      last := ended.session;
      r := Some(if ended.result.Ok? then Finished(w) else Stopped(ended.result.error));
  }

  /** `play` after the handshake. `flipVertical`, `flipOffset` and `offset1` are the draws of
      `create_positions`, `order` is `random.sample(SHOTS, len(SHOTS))`, `placement` is the
      peer's reply to the placement, `incoming[i]` the reply to the i-th `expect_shot`, and
      `final` the reply to `end_game`. The example never runs out of shots and never trips
      the session guard. */
  method Play(s: Session, name: string, flipVertical: bool, flipOffset: bool, offset1: int,
              placement: Reply, order: seq<Coord>, incoming: seq<Reply>, final: Reply)
    returns (r: Ending, last: Session)
    requires s.state == Started
    requires 0 <= offset1 <= 2
    requires multiset(order) == multiset(Shots())
    requires |incoming| == |order|
    ensures !r.OutOfShots?
    ensures last.state != Failed
    ensures r.Finished? ==> last.state == Ended && r.winner in {None, Some(name), Some(s.opponent)}
  {
    var enemy := s.opponent;
    var mine := CreatePositions(flipVertical, flipOffset, offset1);
    var positions := [mine.0, mine.1];
    var placed := PlaceShips(s, positions, placement);
    last := placed.session;
    if placed.result.Err? {
      return Stopped(placed.result.error), last;
    }
    ExpandLayout(positions);
    var myBoard := Expand(positions).value;
    var theirs := Expand(placed.result.value);
    if theirs.Err? {
      return Stopped(theirs.error), last;
    }
    var enemyBoard := theirs.value;
    ReorderedShotsCoverBoard(order);
    // the for-else of `play`: running out of shots raises, unless a decision breaks out
    r := OutOfShots;
    var i := 0;
    var done := false;
    while !done
      invariant i <= |order|
      invariant last.opponent == enemy
      invariant !done ==> i < |order| && IsGrid(myBoard) && IsGrid(enemyBoard)
      invariant !done ==> last.state == (if i == 0 then Placed else Firing)
      invariant !done ==> forall k :: 0 <= k < i ==> HitAt(enemyBoard, order[k])
      invariant done ==> !r.OutOfShots? && last.state != Failed
      invariant done && r.Finished? ==> last.state == Ended && r.winner in {None, Some(name), Some(enemy)}
      decreases |order| - i
    {
      var outcome, next, mine', theirs' := Volley(last, name, order[i], incoming[i], final, myBoard, enemyBoard);
      last := next;
      if outcome.Some? {
        r, done := outcome.value, true;
      } else {
        MarkKeepsHits(enemyBoard, order, i);
        myBoard, enemyBoard := mine', theirs';
        if i + 1 == |order| {
          EveryShotFiredDefeats(enemyBoard, order);
        }
      }
      i := i + 1;
    }
  }
}

=== FILE: protocol.dfy ===
/** Types shared by the client session, the match coordinator and the example
    client: the error kinds, coordinates, ship placements and the messages
    exchanged over a peer's channel. */
module Protocol {

  datatype Option<+T> = None | Some(value: T)

  /** The outcome of an operation that may raise. */
  datatype Result<+T> = Ok(value: T) | Err(error: Error)

  /** The exception kinds the core raises: the three declared by the package
      (Deadlock being a kind of GameError) and the Python built-ins that its
      unpacking and indexing raise. */
  datatype Error =
    | ProtocolError   // a message did not have the shape the protocol expects
    | GameError       // the session was used out of order, or the peer reported a failure
    | Deadlock        // both peers wait for a shot and none is buffered
    | ValueError      // unpacking an empty collection of ship placements
    | IndexError      // a board access outside the board
    | KeyError        // a payload lacks the field the coordinator reads
    | RuntimeError    // the example ran out of shots without a decision

  /** A board cell as (y, x). */
  type Coord = (int, int)

  /** One ship placement `(size, (y, x), vertical)`. */
  datatype Ship = Ship(size: int, origin: Coord, vertical: bool)

  /** A collection of placements as it travels on the wire: three parallel columns. */
  datatype Columns = Columns(sizes: seq<int>, coords: seq<Coord>, vertical: seq<bool>)

  /** Messages a client sends to the coordinator. */
  datatype Request =
    | Hello(identifier: string, version: string)
    | Place(columns: Columns)
    | Announce(coord: Coord)
    | Expect
    | Claim(winner: Option<string>, forfeit: bool)
    | Fail(error: Error)     // a failure notice sent before the sender raises

  /** Messages the coordinator sends to a client. */
  datatype Reply =
    | Greeting(identifier: string, first: bool)
    | Placement(columns: Columns)
    | Shot(coord: Coord)
    | Ack
    | Outcome(winner: Option<string>)
    | Raised(error: Error)   // a reply carrying an error the receiver raises
}

=== FILE: server.dfy ===
/** The match coordinator of battleship_mp/server.py (class Game): the handshake,
    the placement exchange, the per-round shot resolver with its one-slot buffer,
    and the end-of-game arbiter, each as a pure function of the messages read in
    one round. Channel I/O and the concurrent reads of a round are replaced by
    the pair of messages the round reads.

    Where the code deviates from the client contract in client.py and example.py,
    the corrected behaviour is the one the coordinator uses; the code as written
    is kept beside it (the members whose names end in AsWritten) so that each
    deviation can be exhibited on a concrete input.

    The Python class `Server` of the same file, the matchmaking slot, is modelled
    by the module Matchmaking. */
module Server {
  import opened Protocol

  /** A registered client: its self-chosen identifier and an opaque channel. */
  datatype Client = Client(identifier: string, channel: nat)

  /** A match between exactly two clients; `a` is the one that shoots first. */
  datatype Game = Game(a: Client, b: Client)

  /** `handle_start`: each client learns the other's identifier, and only `a` shoots first. */
  function Handshake(g: Game): (r: (Reply, Reply))
    ensures r.0.Greeting? && r.1.Greeting?
    ensures r.0.identifier == g.b.identifier && r.1.identifier == g.a.identifier
    ensures r.0.first != r.1.first
    ensures r.0.first
  {
    (Greeting(g.b.identifier, true), Greeting(g.a.identifier, false))
  }

  /** The error a read raises when the message is not the one expected. */
  function Received(r: Request): Error {
    if r.Fail? then r.error else ProtocolError
  }

  /** `handle_placement`: once both placements are read, each client gets the other's, unchanged. */
  function Exchange(pa: Request, pb: Request): (r: Result<(Reply, Reply)>)
    ensures r.Ok? <==> pa.Place? && pb.Place?
    ensures r.Ok? ==> r.value.0 == Placement(pb.columns) && r.value.1 == Placement(pa.columns)
    ensures !pa.Place? ==> r == Err(Received(pa))
  {
    if !pa.Place? then Err(Received(pa))
    else if !pb.Place? then Err(Received(pb))
    else Ok((Placement(pb.columns), Placement(pa.columns)))
  }

  /** A claim that hands the game to `opponent`: a forfeit, or naming the opponent as winner. */
  predicate Yields(r: Request, opponent: Client) {
    r.Claim? && (r.forfeit || r.winner == Some(opponent.identifier))
  }

  /** `handle_end`: None when neither message carries a claim (the round goes on to shot
      resolution); otherwise the winner broadcast to both clients. A's claim is looked at first. */
  function Arbitrate(g: Game, ra: Request, rb: Request): (r: Option<Option<string>>)
    ensures r.None? <==> !ra.Claim? && !rb.Claim?
    ensures r.Some? && r.value.Some? ==> r.value.value in {g.a.identifier, g.b.identifier}
    ensures Yields(ra, g.b) ==> r == Some(Some(g.b.identifier))
    ensures !Yields(ra, g.b) && Yields(rb, g.a) ==> r == Some(Some(g.a.identifier))
    ensures r.Some? && !Yields(ra, g.b) && !Yields(rb, g.a) ==> r.value.None?
  {
    if !ra.Claim? && !rb.Claim? then None
    else if Yields(ra, g.b) then Some(Some(g.b.identifier))
    else if Yields(rb, g.a) then Some(Some(g.a.identifier))
    else Some(None)
  }

  /** Listing the clients the other way round changes the arbitration only when both yield. */
  lemma ArbitrationIgnoresOrder(g: Game, ra: Request, rb: Request)
    requires !(Yields(ra, g.b) && Yields(rb, g.a))
    ensures Arbitrate(Game(g.b, g.a), rb, ra) == Arbitrate(g, ra, rb)
  {
  }

  /** End arbitration on named cases: a forfeit, a concession, claims that name no one's
      opponent, and two claims that each name the opponent, where A's concession is looked
      at first and B wins. */
  lemma ArbitrationCases(g: Game, w: Option<string>)
    requires g.a.identifier != g.b.identifier
    ensures Arbitrate(g, Claim(Some(g.b.identifier), true), Claim(w, false)) == Some(Some(g.b.identifier))
    ensures Arbitrate(g, Claim(Some(g.a.identifier), false), Claim(Some(g.a.identifier), false))
            == Some(Some(g.a.identifier))
    ensures Arbitrate(g, Claim(Some(g.a.identifier), false), Claim(Some(g.b.identifier), false)) == Some(None)
    ensures Arbitrate(g, Claim(Some(g.b.identifier), false), Claim(Some(g.a.identifier), false))
            == Some(Some(g.b.identifier))
    ensures Arbitrate(g, Claim(None, false), Expect) == Some(None)
    ensures Arbitrate(g, Announce((0, 0)), Claim(w, true)) == Some(Some(g.a.identifier))
  {
  }

  /** Coordinates held back after both clients announced in the same round. */
  datatype Buffer = Buffer(forA: Coord, forB: Coord)

  /** What a round sends, and whether the match goes on. */
  datatype RoundResult =
    | Continue(toA: Option<Reply>, toB: Option<Reply>, buffer: Option<Buffer>)
    | Finish(finalA: Reply, finalB: Reply)   // the final broadcast: the winner, or a deadlock
    | Abandon(error: Error)            // a message could not be processed; nothing is sent

  /** One round of `handle_shots` (reading both messages, then `handle_end`), resolved with
      cross delivery: a client is only ever handed the coordinate its opponent announced.
      A failure notice raises its error as it is read, before any arbitration. */
  function ResolveRound(g: Game, ra: Request, rb: Request, buffer: Option<Buffer>): (r: RoundResult)
    ensures ra.Fail? ==> r == Abandon(ra.error)
    ensures !ra.Fail? && rb.Fail? ==> r == Abandon(rb.error)
    ensures !ra.Fail? && !rb.Fail? && Arbitrate(g, ra, rb).Some? ==>
              r == Finish(Outcome(Arbitrate(g, ra, rb).value), Outcome(Arbitrate(g, ra, rb).value))
    ensures r.Finish? ==> !r.finalA.Shot? && !r.finalB.Shot?
    ensures (!ra.Fail? && !rb.Fail? && !ra.Claim? && !rb.Claim? &&
             !((ra.Announce? || ra.Expect?) && (rb.Announce? || rb.Expect?))) ==> r == Abandon(KeyError)
    ensures r.Continue? && r.toA.Some? && r.toA.value.Shot? ==>
              rb == Announce(r.toA.value.coord) || (buffer.Some? && buffer.value.forA == r.toA.value.coord)
    ensures r.Continue? && r.toB.Some? && r.toB.value.Shot? ==>
              ra == Announce(r.toB.value.coord) || (buffer.Some? && buffer.value.forB == r.toB.value.coord)
    ensures r.Continue? && r.buffer.Some? ==>
              r.buffer == buffer || (ra.Announce? && rb.Announce? && r.buffer.value == Buffer(rb.coord, ra.coord))
    ensures r.Continue? ==> ra.Announce? || rb.Announce? || buffer.Some?
  {
    if ra.Fail? then Abandon(ra.error)
    else if rb.Fail? then Abandon(rb.error)
    else match Arbitrate(g, ra, rb)
    case Some(w) => Finish(Outcome(w), Outcome(w))
    case None =>
      if ra.Expect? && rb.Expect? then
        match buffer
        case None => Finish(Raised(Deadlock), Raised(Deadlock))
        case Some(held) => Continue(Some(Shot(held.forA)), Some(Shot(held.forB)), None)
      else if ra.Announce? && rb.Expect? then Continue(Some(Ack), Some(Shot(ra.coord)), buffer)
      else if ra.Expect? && rb.Announce? then Continue(Some(Shot(rb.coord)), Some(Ack), buffer)
      else if ra.Announce? && rb.Announce? then Continue(None, None, Some(Buffer(rb.coord, ra.coord)))
      else Abandon(KeyError)
  }

  /** The round table: one announce against one expect, two announces, two expects. */
  lemma RoundTable(g: Game, c: Coord, d: Coord, buffer: Option<Buffer>)
    ensures ResolveRound(g, Announce(c), Expect, buffer) == Continue(Some(Ack), Some(Shot(c)), buffer)
    ensures ResolveRound(g, Expect, Announce(c), buffer) == Continue(Some(Shot(c)), Some(Ack), buffer)
    ensures ResolveRound(g, Announce(c), Announce(d), buffer) == Continue(None, None, Some(Buffer(d, c)))
    ensures buffer.Some? ==>
              ResolveRound(g, Expect, Expect, buffer)
              == Continue(Some(Shot(buffer.value.forA)), Some(Shot(buffer.value.forB)), None)
    ensures buffer.None? ==> ResolveRound(g, Expect, Expect, buffer) == Finish(Raised(Deadlock), Raised(Deadlock))
  {
  }

  /** The turn loop: rounds are resolved in order, carrying the buffer, until one finishes
      the match or the input runs out. */
  function PlayRounds(g: Game, rounds: seq<(Request, Request)>, buffer: Option<Buffer>): (out: seq<RoundResult>)
    ensures |out| <= |rounds|
    ensures |rounds| > 0 ==> |out| > 0 && out[0] == ResolveRound(g, rounds[0].0, rounds[0].1, buffer)
    ensures forall i :: 0 <= i < |out| - 1 ==> out[i].Continue?
    ensures forall i {:trigger rounds[i]} :: 0 < i < |out| ==> out[i] == ResolveRound(g, rounds[i].0, rounds[i].1, out[i - 1].buffer)
    ensures forall i :: 0 <= i < |out| && out[i].Finish? ==> !out[i].finalA.Shot? && !out[i].finalB.Shot?
    ensures |out| < |rounds| ==> |out| > 0 && !out[|out| - 1].Continue?
    decreases |rounds|
  {
    if |rounds| == 0 then []
    else
      var r := ResolveRound(g, rounds[0].0, rounds[0].1, buffer);
      if r.Continue? then [r] + PlayRounds(g, rounds[1..], r.buffer) else [r]
  }

  /** What a round resolves to depends only on the rounds read so far: replaying the first k
      rounds gives a prefix of the full run. */
  lemma {:induction false} RoundsAreCausal(g: Game, rounds: seq<(Request, Request)>, k: nat, buffer: Option<Buffer>)
    requires k <= |rounds|
    ensures PlayRounds(g, rounds[..k], buffer) <= PlayRounds(g, rounds, buffer)
    decreases k
  {
    if k > 0 {
      var r := ResolveRound(g, rounds[0].0, rounds[0].1, buffer);
      assert rounds[..k][0] == rounds[0];
      if r.Continue? {
        assert rounds[..k][1..] == rounds[1..][..k - 1];
        RoundsAreCausal(g, rounds[1..], k - 1, r.buffer);
      }
    }
  }

  predicate AnnouncedByA(rounds: seq<(Request, Request)>, upto: int, c: Coord) {
    exists j :: 0 <= j <= upto && j < |rounds| && rounds[j].0 == Announce(c)
  }

  predicate AnnouncedByB(rounds: seq<(Request, Request)>, upto: int, c: Coord) {
    exists j :: 0 <= j <= upto && j < |rounds| && rounds[j].1 == Announce(c)
  }

  predicate DeliveredToA(out: seq<RoundResult>, i: int, c: Coord) {
    0 <= i < |out| && out[i].Continue? && out[i].toA == Some(Shot(c))
  }

  predicate DeliveredToB(out: seq<RoundResult>, i: int, c: Coord) {
    0 <= i < |out| && out[i].Continue? && out[i].toB == Some(Shot(c))
  }

  /** Cross delivery over a whole turn loop: every coordinate a client is handed was announced
      by its opponent in that round or an earlier one (or was already held for it). */
  lemma {:induction false} ShotsComeFromOpponent(g: Game, rounds: seq<(Request, Request)>, buffer: Option<Buffer>)
    ensures forall i, c :: DeliveredToA(PlayRounds(g, rounds, buffer), i, c) ==>
              AnnouncedByB(rounds, i, c) || (buffer.Some? && buffer.value.forA == c)
    ensures forall i, c :: DeliveredToB(PlayRounds(g, rounds, buffer), i, c) ==>
              AnnouncedByA(rounds, i, c) || (buffer.Some? && buffer.value.forB == c)
    decreases |rounds|
  {
    if |rounds| > 0 {
      var out := PlayRounds(g, rounds, buffer);
      var r := ResolveRound(g, rounds[0].0, rounds[0].1, buffer);
      if r.Continue? {
        var rest := PlayRounds(g, rounds[1..], r.buffer);
        assert out == [r] + rest;
        ShotsComeFromOpponent(g, rounds[1..], r.buffer);
        forall i, c | DeliveredToA(out, i, c)
          ensures AnnouncedByB(rounds, i, c) || (buffer.Some? && buffer.value.forA == c)
        {
          if i == 0 {
            if rounds[0].1 == Announce(c) {
              assert AnnouncedByB(rounds, i, c) by { assert rounds[0].1 == Announce(c); }
            }
          } else {
            assert DeliveredToA(rest, i - 1, c);
            if AnnouncedByB(rounds[1..], i - 1, c) {
              var j :| 0 <= j <= i - 1 && j < |rounds[1..]| && rounds[1..][j].1 == Announce(c);
              assert rounds[j + 1].1 == Announce(c);
            } else if rounds[0].1 == Announce(c) {
              assert AnnouncedByB(rounds, i, c) by { assert rounds[0].1 == Announce(c); }
            }
          }
        }
        forall i, c | DeliveredToB(out, i, c)
          ensures AnnouncedByA(rounds, i, c) || (buffer.Some? && buffer.value.forB == c)
        {
          if i == 0 {
            if rounds[0].0 == Announce(c) {
              assert AnnouncedByA(rounds, i, c) by { assert rounds[0].0 == Announce(c); }
            }
          } else {
            assert DeliveredToB(rest, i - 1, c);
            if AnnouncedByA(rounds[1..], i - 1, c) {
              var j :| 0 <= j <= i - 1 && j < |rounds[1..]| && rounds[1..][j].0 == Announce(c);
              assert rounds[j + 1].0 == Announce(c);
            } else if rounds[0].0 == Announce(c) {
              assert AnnouncedByA(rounds, i, c) by { assert rounds[0].0 == Announce(c); }
            }
          }
        }
      }
    }
  }

  /** Simultaneous fire: A announces (2, 3) and B announces (0, 0); in the next round, both
      expecting, A is handed (0, 0) and B is handed (2, 3). */
  lemma SimultaneousFireCrossDelivers(g: Game)
    ensures PlayRounds(g, [(Announce((2, 3)), Announce((0, 0))), (Expect, Expect)], None)
            == [Continue(None, None, Some(Buffer((0, 0), (2, 3)))),
                Continue(Some(Shot((0, 0))), Some(Shot((2, 3))), None)]
  {
    var rounds := [(Announce((2, 3)), Announce((0, 0))), (Expect, Expect)];
    assert rounds[1..] == [(Expect, Expect)];
    assert rounds[1..][1..] == [];
  }

  /** How the match ends, if it has. */
  datatype Status = Open | Over | Crashed(error: Error)

  /** Everything sent to each client, in order, and how the match stands. */
  datatype Transcript = Transcript(toA: seq<Reply>, toB: seq<Reply>, status: Status)

  function Sent(m: Option<Reply>): seq<Reply> {
    if m.Some? then [m.value] else []
  }

  /** The messages of a sequence of resolved rounds, flattened per client. */
  function Messages(out: seq<RoundResult>): (t: Transcript)
    ensures |t.toA| <= 2 * |out| && |t.toB| <= 2 * |out|
    ensures |out| == 0 ==> t == Transcript([], [], Open)
    decreases |out|
  {
    if |out| == 0 then Transcript([], [], Open)
    else
      var rest := Messages(out[1..]);
      match out[0]
      case Continue(x, y, _) => Transcript(Sent(x) + rest.toA, Sent(y) + rest.toB, rest.status)
      case Finish(x, y) => Transcript([x], [y], Over)
      case Abandon(e) => Transcript([], [], Crashed(e))
  }

  /** A match as the coordinator is meant to drive it: handshake, placement, then the turn loop. */
  function Run(g: Game, pa: Request, pb: Request, rounds: seq<(Request, Request)>): (t: Transcript)
    ensures |t.toA| >= 1 && |t.toB| >= 1
    ensures t.toA[0] == Greeting(g.b.identifier, true) && t.toB[0] == Greeting(g.a.identifier, false)
    ensures pa.Place? && pb.Place? ==>
              |t.toA| >= 2 && |t.toB| >= 2 && t.toA[1] == Placement(pb.columns) && t.toB[1] == Placement(pa.columns)
    ensures !(pa.Place? && pb.Place?) ==> t.status.Crashed?
  {
    var hello := Handshake(g);
    match Exchange(pa, pb)
    case Err(e) => Transcript([hello.0], [hello.1], Crashed(e))
    case Ok(placed) =>
      var turns := Messages(PlayRounds(g, rounds, None));
      Transcript([hello.0, placed.0] + turns.toA, [hello.1, placed.1] + turns.toB, turns.status)
  }

  /** Every shot in the flattened messages was handed out by one of the continuing rounds,
      provided no final broadcast is a shot. */
  lemma {:induction false} MessagesShotsDelivered(out: seq<RoundResult>)
    requires forall i :: 0 <= i < |out| && out[i].Finish? ==> !out[i].finalA.Shot? && !out[i].finalB.Shot?
    ensures forall k :: 0 <= k < |Messages(out).toA| && Messages(out).toA[k].Shot? ==>
              exists i :: DeliveredToA(out, i, Messages(out).toA[k].coord)
    ensures forall k :: 0 <= k < |Messages(out).toB| && Messages(out).toB[k].Shot? ==>
              exists i :: DeliveredToB(out, i, Messages(out).toB[k].coord)
    decreases |out|
  {
    if |out| > 0 {
      var t := Messages(out);
      var rest := Messages(out[1..]);
      MessagesShotsDelivered(out[1..]);
      match out[0]
      case Continue(x, y, _) =>
        forall k | 0 <= k < |t.toA| && t.toA[k].Shot?
          ensures exists i :: DeliveredToA(out, i, t.toA[k].coord)
        {
          if k < |Sent(x)| {
            assert DeliveredToA(out, 0, t.toA[k].coord);
          } else {
            assert t.toA[k] == rest.toA[k - |Sent(x)|];
            var i :| DeliveredToA(out[1..], i, t.toA[k].coord);
            assert DeliveredToA(out, i + 1, t.toA[k].coord);
          }
        }
        forall k | 0 <= k < |t.toB| && t.toB[k].Shot?
          ensures exists i :: DeliveredToB(out, i, t.toB[k].coord)
        {
          if k < |Sent(y)| {
            assert DeliveredToB(out, 0, t.toB[k].coord);
          } else {
            assert t.toB[k] == rest.toB[k - |Sent(y)|];
            var i :| DeliveredToB(out[1..], i, t.toB[k].coord);
            assert DeliveredToB(out, i + 1, t.toB[k].coord);
          }
        }
      case Finish(x, y) =>
        assert !out[0].finalA.Shot? && !out[0].finalB.Shot?;
      case Abandon(e) =>
    }
  }

  /** Cross delivery over a whole match: every shot a client is sent, after the greeting and
      the placement, was announced by its opponent in some round. */
  lemma RunShotsComeFromOpponent(g: Game, pa: Request, pb: Request, rounds: seq<(Request, Request)>)
    ensures var t := Run(g, pa, pb, rounds);
            (forall k :: 0 <= k < |t.toA| && t.toA[k].Shot? ==> AnnouncedByB(rounds, |rounds|, t.toA[k].coord)) &&
            (forall k :: 0 <= k < |t.toB| && t.toB[k].Shot? ==> AnnouncedByA(rounds, |rounds|, t.toB[k].coord))
  {
    var t := Run(g, pa, pb, rounds);
    if pa.Place? && pb.Place? {
      var out := PlayRounds(g, rounds, None);
      var turns := Messages(out);
      ShotsComeFromOpponent(g, rounds, None);
      MessagesShotsDelivered(out);
      assert t.toA == [Greeting(g.b.identifier, true), Placement(pb.columns)] + turns.toA;
      assert t.toB == [Greeting(g.a.identifier, false), Placement(pa.columns)] + turns.toB;
      forall k | 0 <= k < |t.toA| && t.toA[k].Shot?
        ensures AnnouncedByB(rounds, |rounds|, t.toA[k].coord)
      {
        var c := t.toA[k].coord;
        assert t.toA[k] == turns.toA[k - 2];
        var i :| DeliveredToA(out, i, c);
        var j :| 0 <= j <= i && j < |rounds| && rounds[j].1 == Announce(c);
      }
      forall k | 0 <= k < |t.toB| && t.toB[k].Shot?
        ensures AnnouncedByA(rounds, |rounds|, t.toB[k].coord)
      {
        var c := t.toB[k].coord;
        assert t.toB[k] == turns.toB[k - 2];
        var i :| DeliveredToB(out, i, c);
        var j :| 0 <= j <= i && j < |rounds| && rounds[j].0 == Announce(c);
      }
    }
  }

  // ---------------------------------------------------------------------------
  // The coordinator as written

  /** `Game.run` as written: it awaits the handshake and the placement and returns,
      so the turn loop never runs and no round is ever read. */
  function RunAsWritten(g: Game, pa: Request, pb: Request, rounds: seq<(Request, Request)>): (t: Transcript)
    ensures |t.toA| <= 2 && |t.toB| <= 2
    ensures t.status != Open
    ensures forall i :: 0 <= i < |t.toA| ==> !t.toA[i].Shot?
    ensures forall i :: 0 <= i < |t.toB| ==> !t.toB[i].Shot?
  {
    var hello := Handshake(g);
    match Exchange(pa, pb)
    case Err(e) => Transcript([hello.0], [hello.1], Crashed(e))
    case Ok(placed) => Transcript([hello.0, placed.0], [hello.1, placed.1], Over)
  }

  /** With the turn loop wired in, an announced shot reaches the opponent; as written it never does. */
  lemma RunSkipsTurnLoop(g: Game, cols: Columns)
    ensures Run(g, Place(cols), Place(cols), [(Announce((1, 1)), Expect)]).toB
            == [Greeting(g.a.identifier, false), Placement(cols), Shot((1, 1))]
    ensures RunAsWritten(g, Place(cols), Place(cols), [(Announce((1, 1)), Expect)]).toB
            == [Greeting(g.a.identifier, false), Placement(cols)]
  {
    var rounds := [(Announce((1, 1)), Expect)];
    assert rounds[1..] == [];
    var out := PlayRounds(g, rounds, None);
    assert out == [Continue(Some(Ack), Some(Shot((1, 1))), None)];
    assert out[1..] == [];
  }

  /** One round of the action branch of `handle_shots` as written: the buffer keeps each
      client's own announce for that client, an expecting A reads a field of its own message,
      and a deadlock is reported without leaving the loop. */
  function RoundAsWritten(ra: Request, rb: Request, buffer: Option<Buffer>): (r: RoundResult)
    ensures ra.Announce? && rb.Announce? ==> r.Continue? && r.buffer == Some(Buffer(ra.coord, rb.coord))
    ensures ra.Expect? && rb.Announce? ==> r == Abandon(KeyError)
    ensures ra.Expect? && rb.Expect? ==> r.Continue?
    ensures !ra.Fail? && !rb.Fail? && (ra.Claim? || rb.Claim?) ==> r == Abandon(KeyError)
  {
    if ra.Fail? then Abandon(ra.error)
    else if rb.Fail? then Abandon(rb.error)
    else if ra.Expect? && rb.Expect? then
      match buffer
      case None => Continue(Some(Raised(Deadlock)), Some(Raised(Deadlock)), None)
      case Some(held) => Continue(Some(Shot(held.forA)), Some(Shot(held.forB)), None)
    else if ra.Announce? && rb.Expect? then Continue(Some(Ack), Some(Shot(ra.coord)), buffer)
    else if ra.Expect? && rb.Announce? then Abandon(KeyError)
    else if ra.Announce? && rb.Announce? then Continue(None, None, Some(Buffer(ra.coord, rb.coord)))
    else Abandon(KeyError)
  }

  /** As written, B announcing to an expecting A fails on A's missing announce field;
      resolved as intended, A is handed B's coordinate. */
  lemma ExpectingAReadsOwnMessage(g: Game, c: Coord)
    ensures RoundAsWritten(Expect, Announce(c), None) == Abandon(KeyError)
    ensures ResolveRound(g, Expect, Announce(c), None) == Continue(Some(Shot(c)), Some(Ack), None)
  {
  }

  /** As written, after a simultaneous announce each client is handed its own shot back. */
  lemma BufferReturnsOwnShot()
    ensures var first := RoundAsWritten(Announce((2, 3)), Announce((0, 0)), None);
            first.Continue? &&
            RoundAsWritten(Expect, Expect, first.buffer) == Continue(Some(Shot((2, 3))), Some(Shot((0, 0))), None)
  {
  }

  /** As written, a deadlock is reported and the loop reads another round; resolved as
      intended, the deadlock finishes the match. */
  lemma DeadlockKeepsLooping(g: Game)
    ensures RoundAsWritten(Expect, Expect, None).Continue?
    ensures ResolveRound(g, Expect, Expect, None) == Finish(Raised(Deadlock), Raised(Deadlock))
  {
  }

  /** `handle_end` as written: every yielding claim is broadcast, and then "no winner" is
      broadcast as well, because nothing returns after a decision. Each element is one broadcast. */
  function ArbitrateAsWritten(g: Game, ra: Request, rb: Request): (r: seq<Option<string>>)
    ensures !ra.Claim? && !rb.Claim? ==> r == []
    ensures (ra.Claim? || rb.Claim?) ==> |r| >= 1 && r[|r| - 1] == None
  {
    if !ra.Claim? && !rb.Claim? then []
    else
      (if Yields(ra, g.b) then [Some(g.b.identifier)] else [])
      + (if Yields(rb, g.a) then [Some(g.a.identifier)] else [])
      + [None]
  }

  /** As written, a forfeit by A is followed by a "no winner" broadcast; as intended the
      only broadcast names B. */
  lemma ForfeitAlsoBroadcastsNoWinner(g: Game)
    ensures ArbitrateAsWritten(g, Claim(Some(g.b.identifier), true), Expect) == [Some(g.b.identifier), None]
    ensures Arbitrate(g, Claim(Some(g.b.identifier), true), Expect) == Some(Some(g.b.identifier))
  {
  }

  /** When there is a decision, the arbiter's single broadcast is the first one the code as
      written sends; when there is none, it is the only one. */
  lemma ArbitrationIsFirstBroadcast(g: Game, ra: Request, rb: Request)
    requires ra.Claim? || rb.Claim?
    ensures Arbitrate(g, ra, rb) == Some(ArbitrateAsWritten(g, ra, rb)[0])
  {
  }

  /** As written, a claim round does not stop after `handle_end`: once the broadcasts are
      sent, the claim messages reach the action branch, which reads an announce field that a
      claim does not have. Resolved as intended, the round finishes the match instead. */
  lemma ClaimRoundRaisesKeyError(g: Game, ra: Request, rb: Request, buffer: Option<Buffer>)
    requires ra.Claim? || rb.Claim?
    requires !ra.Fail? && !rb.Fail?
    ensures |ArbitrateAsWritten(g, ra, rb)| >= 1 && RoundAsWritten(ra, rb, buffer) == Abandon(KeyError)
    ensures ResolveRound(g, ra, rb, buffer) == Finish(Outcome(ArbitrateAsWritten(g, ra, rb)[0]),
                                                      Outcome(ArbitrateAsWritten(g, ra, rb)[0]))
  {
  }

  /** The case of a forfeit by A while B waits for a shot: as written, both clients are sent
      B, then no winner, and the round then fails with KeyError. */
  lemma ForfeitThenKeyError(g: Game, buffer: Option<Buffer>)
    ensures ArbitrateAsWritten(g, Claim(Some(g.b.identifier), true), Expect) == [Some(g.b.identifier), None]
    ensures RoundAsWritten(Claim(Some(g.b.identifier), true), Expect, buffer) == Abandon(KeyError)
  {
  }
}

=== FILE: session.dfy ===
/** The client-side session guard of battleship_mp/client.py: a five-state
    machine that every protocol call passes before it talks to the peer, and
    the calls themselves with the peer's reply given as an input. */
module ClientSession {
  import opened Protocol

  datatype State = Started | Placed | Firing | Ended | Failed

  /** Position in the forward order Started < Placed < Firing < Ended; Failed sits past all of them. */
  function Rank(s: State): nat {
    match s
    case Started => 0
    case Placed => 1
    case Firing => 2
    case Ended => 3
    case Failed => 4
  }

  /** The four guarded calls of a session. */
  datatype Operation = Placing | Announcing | Expecting | Ending

  /** The state a call moves to when it is legal. */
  function Target(op: Operation): State {
    match op
    case Placing => Placed
    case Announcing => Firing
    case Expecting => Firing
    case Ending => Ended
  }

  /** The states a call may be made from. */
  function Expected(op: Operation): set<State> {
    match op
    case Placing => {Started}
    case Announcing => {Placed, Firing}
    case Expecting => {Placed, Firing}
    case Ending => {Started, Placed, Firing}
  }

  /** The state after a call: its target when legal, Failed otherwise. */
  function Next(s: State, op: Operation): State {
    if s in Expected(op) then Target(op) else Failed
  }

  /** The state after a sequence of calls. */
  function Replay(s: State, ops: seq<Operation>): State
    decreases |ops|
  {
    if |ops| == 0 then s else Replay(Next(s, ops[0]), ops[1..])
  }

  datatype Session = Session(opponent: string, first: bool, state: State)

  /** A session as the handshake creates it. */
  function Init(opponent: string, first: bool): (s: Session)
    ensures s.state == Started
    ensures s.opponent == opponent && s.first == first
  {
    Session(opponent, first, Started)
  }

  /** What a call leaves behind: the session, the requests it sent, and its result or error. */
  datatype Call<+T> = Call(session: Session, sent: seq<Request>, result: Result<T>)

  /** The guard: an illegal call marks the session Failed, notifies the peer and raises GameError. */
  function CheckTransition(s: Session, op: Operation): (r: Call<()>)
    ensures r.result.Ok? <==> s.state in Expected(op)
    ensures r.session.state == Next(s.state, op)
    ensures r.session.opponent == s.opponent && r.session.first == s.first
    ensures r.result.Ok? ==> r.sent == []
    ensures r.result.Err? ==> r.result.error == GameError && r.sent == [Fail(GameError)]
  {
    if s.state in Expected(op) then Call(s.(state := Target(op)), [], Ok(()))
    else Call(s.(state := Failed), [Fail(GameError)], Err(GameError))
  }

  /** The error a reply raises when it lacks the fields the call waits for. */
  function Unexpected(reply: Reply): Error {
    if reply.Raised? then reply.error else ProtocolError
  }

  function Min(a: nat, b: nat): nat {
    if a <= b then a else b
  }

  /** Unpacking the placements into three columns; an empty collection cannot be unpacked. */
  function Split(ships: seq<Ship>): (r: Result<Columns>)
    ensures r.Err? <==> |ships| == 0
    ensures r.Err? ==> r.error == ValueError
    ensures r.Ok? ==> |r.value.sizes| == |r.value.coords| == |r.value.vertical| == |ships|
  {
    if |ships| == 0 then Err(ValueError)
    else
      Ok(Columns(
           seq(|ships|, i requires 0 <= i < |ships| => ships[i].size),
           seq(|ships|, i requires 0 <= i < |ships| => ships[i].origin),
           seq(|ships|, i requires 0 <= i < |ships| => ships[i].vertical)))
  }

  /** Zipping three columns back into placements; the result is as long as the shortest column. */
  function Zip(c: Columns): (r: seq<Ship>)
    ensures |r| == Min(|c.sizes|, Min(|c.coords|, |c.vertical|))
    ensures forall i :: 0 <= i < |r| ==> r[i] == Ship(c.sizes[i], c.coords[i], c.vertical[i])
  {
    var n := Min(|c.sizes|, Min(|c.coords|, |c.vertical|));
    seq(n, i requires 0 <= i < n => Ship(c.sizes[i], c.coords[i], c.vertical[i]))
  }

  /** Splitting a non-empty collection and zipping the columns gives back the collection. */
  lemma ZipSplit(ships: seq<Ship>)
    requires |ships| > 0
    ensures Split(ships).Ok? && Zip(Split(ships).value) == ships
  {
    var back := Zip(Split(ships).value);
    assert |back| == |ships|;
    forall i | 0 <= i < |ships|
      ensures back[i] == ships[i]
    {
    }
  }

  /** Zipping equally long non-empty columns and splitting the result gives back the columns. */
  lemma SplitZip(c: Columns)
    requires |c.sizes| == |c.coords| == |c.vertical| > 0
    ensures Split(Zip(c)) == Ok(c)
  {
    var back := Split(Zip(c)).value;
    assert back.sizes == c.sizes;
    assert back.coords == c.coords;
    assert back.vertical == c.vertical;
  }

  /** `place_ships`: exchange the local placements for the peer's. */
  function PlaceShips(s: Session, ships: seq<Ship>, reply: Reply): (r: Call<seq<Ship>>)
    ensures r.session.state == Next(s.state, Placing)
    ensures r.session.opponent == s.opponent && r.session.first == s.first
    ensures s.state == Started ==> r.session.state == Placed
    ensures s.state != Started ==>
              r.session.state == Failed && r.result == Err(GameError) && r.sent == [Fail(GameError)]
    ensures s.state == Started && |ships| == 0 ==> r.result == Err(ValueError) && r.sent == []
    ensures s.state == Started && |ships| > 0 ==>
              |r.sent| == 1 && r.sent[0].Place? && Zip(r.sent[0].columns) == ships
    ensures s.state == Started && |ships| > 0 && reply.Placement? ==> r.result == Ok(Zip(reply.columns))
    ensures s.state == Started && |ships| > 0 && !reply.Placement? ==> r.result == Err(Unexpected(reply))
  {
    var g := CheckTransition(s, Placing);
    if g.result.Err? then Call(g.session, g.sent, Err(g.result.error))
    else
      match Split(ships)
      case Err(e) => Call(g.session, [], Err(e))
      case Ok(columns) =>
        assert Zip(columns) == ships by { ZipSplit(ships); }
        var result := if reply.Placement? then Ok(Zip(reply.columns)) else Err(Unexpected(reply));
        Call(g.session, [Place(columns)], result)
  }

  /** `announce_shot`: send the coordinate of a shot. */
  function AnnounceShot(s: Session, coord: Coord): (r: Call<()>)
    ensures r.session.state == Next(s.state, Announcing)
    ensures r.session.opponent == s.opponent && r.session.first == s.first
    ensures s.state in {Placed, Firing} ==>
              r.session.state == Firing && r.result.Ok? && r.sent == [Announce(coord)]
    ensures s.state !in {Placed, Firing} ==>
              r.session.state == Failed && r.result == Err(GameError) && r.sent == [Fail(GameError)]
  {
    var g := CheckTransition(s, Announcing);
    if g.result.Err? then g else Call(g.session, [Announce(coord)], Ok(()))
  }

  /** `expect_shot`: wait for the peer's shot and return its coordinate. */
  function ExpectShot(s: Session, reply: Reply): (r: Call<Coord>)
    ensures r.session.state == Next(s.state, Expecting)
    ensures r.session.opponent == s.opponent && r.session.first == s.first
    ensures s.state in {Placed, Firing} ==> r.session.state == Firing && r.sent == [Expect]
    ensures s.state in {Placed, Firing} ==>
              (r.result.Ok? <==> reply.Shot?) && (reply.Shot? ==> r.result.value == reply.coord)
    ensures s.state in {Placed, Firing} && reply.Raised? ==> r.result == Err(reply.error)
    ensures s.state in {Placed, Firing} && !reply.Shot? && !reply.Raised? ==> r.result == Err(ProtocolError)
    ensures s.state !in {Placed, Firing} ==>
              r.session.state == Failed && r.result == Err(GameError) && r.sent == [Fail(GameError)]
  {
    var g := CheckTransition(s, Expecting);
    if g.result.Err? then Call(g.session, g.sent, Err(g.result.error))
    else if reply.Shot? then Call(g.session, [Expect], Ok(reply.coord))
    else Call(g.session, [Expect], Err(Unexpected(reply)))
  }

  /** `end_game`: announce a winner or forfeit, and return the winner the peer reports;
      a forfeiting player names the opponent and gets the opponent back. */
  function EndGame(s: Session, winner: Option<string>, forfeit: bool, reply: Reply): (r: Call<Option<string>>)
    ensures r.session.state == Next(s.state, Ending)
    ensures r.session.opponent == s.opponent && r.session.first == s.first
    ensures s.state in {Started, Placed, Firing} <==> r.session.state == Ended
    ensures s.state !in {Started, Placed, Firing} ==>
              r.session.state == Failed && r.result == Err(GameError) && r.sent == [Fail(GameError)]
    ensures s.state in {Started, Placed, Firing} ==>
              r.sent == [Claim(if forfeit then Some(s.opponent) else winner, forfeit)]
    ensures s.state in {Started, Placed, Firing} ==> (r.result.Ok? <==> reply.Outcome?)
    ensures forfeit && r.result.Ok? ==> r.result.value == Some(s.opponent)
    ensures !forfeit && r.result.Ok? ==> r.result.value == reply.winner
  {
    var g := CheckTransition(s, Ending);
    if g.result.Err? then Call(g.session, g.sent, Err(g.result.error))
    else
      var claimed := if forfeit then Some(s.opponent) else winner;
      var result := if !reply.Outcome? then Err(Unexpected(reply))
                    else if forfeit then Ok(Some(s.opponent))
                    else Ok(reply.winner);
      Call(g.session, [Claim(claimed, forfeit)], result)
  }

  /** No call is legal from Ended or Failed, so every call there fails. */
  lemma TerminalStatesRejectAll(s: State, op: Operation)
    requires s == Ended || s == Failed
    ensures Next(s, op) == Failed
  {
  }

  /** Once Failed, a session stays Failed whatever is called. */
  lemma {:induction false} FailedIsAbsorbing(ops: seq<Operation>)
    ensures Replay(Failed, ops) == Failed
    decreases |ops|
  {
    if |ops| > 0 {
      TerminalStatesRejectAll(Failed, ops[0]);
      FailedIsAbsorbing(ops[1..]);
    }
  }

  /** A legal call moves strictly forward in Started < Placed < Firing < Ended,
      except a shot call from Firing, the only self-loop. */
  lemma LegalCallsMoveForward(s: State, op: Operation)
    requires Next(s, op) != Failed
    ensures s != Failed && Next(s, op) != Started
    ensures Rank(s) < Rank(Next(s, op)) || (s == Firing && Next(s, op) == Firing && op in {Announcing, Expecting})
  {
  }

  lemma {:induction false} ReplayAppend(s: State, a: seq<Operation>, b: seq<Operation>)
    ensures Replay(s, a + b) == Replay(Replay(s, a), b)
    decreases |a|
  {
    if |a| == 0 {
      assert a + b == b;
    } else {
      assert (a + b)[1..] == a[1..] + b;
      ReplayAppend(Next(s, a[0]), a[1..], b);
    }
  }

  /** A sequence of calls that does not end Failed never brings the session back to an earlier state. */
  lemma {:induction false} ReplayNeverRegresses(s: State, ops: seq<Operation>)
    requires Replay(s, ops) != Failed
    ensures Rank(s) <= Rank(Replay(s, ops))
    decreases |ops|
  {
    if |ops| > 0 {
      var t := Next(s, ops[0]);
      FailedIsAbsorbing(ops[1..]);
      assert t != Failed;
      LegalCallsMoveForward(s, ops[0]);
      ReplayNeverRegresses(t, ops[1..]);
    }
  }

  predicate IsShotCall(op: Operation) {
    op == Announcing || op == Expecting
  }

  lemma {:induction false} ShotCallsKeepFiring(s: State, shots: seq<Operation>)
    requires s == Placed || s == Firing
    requires forall i :: 0 <= i < |shots| ==> IsShotCall(shots[i])
    ensures Replay(s, shots) == (if |shots| == 0 then s else Firing)
    decreases |shots|
  {
    if |shots| > 0 {
      ShotCallsKeepFiring(Firing, shots[1..]);
    }
  }

  /** The documented order place -> (announce | expect)* -> end is accepted from a new session
      and ends in Ended. */
  lemma DocumentedOrderSucceeds(shots: seq<Operation>)
    requires forall i :: 0 <= i < |shots| ==> IsShotCall(shots[i])
    ensures Replay(Started, [Placing] + shots + [Ending]) == Ended
  {
    ReplayAppend(Started, [Placing] + shots, [Ending]);
    ReplayAppend(Started, [Placing], shots);
    ShotCallsKeepFiring(Placed, shots);
  }
}
